=== FILE: README.md ===
# Telephony event core, modelled in Dafny

This project models the core of a small telephony dashboard built around a
FreeSWITCH switch. The core has four parts:

- **The native Event Socket client** (`ESLConnection`). It authenticates with
  `auth <password>`, keeps a text buffer that grows with every socket read, and
  cuts complete frames off at each blank line. It parses each frame's
  `Header: value` lines into a map and fans the frame out to `esl::event`,
  `esl::event::<name>` and `esl::event::CUSTOM::<subclass>` listeners.
- **The server's switch supervisor and its listeners**:
  - the connection globals `conn`, `isConnected` and `connectionTimeout`, as
    `disconnect`, `initESL` and the ready callback update them;
  - the presence snapshot, which takes the `<user>…</user>` captures of
    `show registrations as xml`;
  - the incremental presence handler for `sofia::register`, `sofia::unregister`
    and `sofia::expire`;
  - the `CHANNEL_HANGUP_COMPLETE` handler, which finalises call records by SIP
    Call-ID and otherwise by a five-minute caller/callee fallback.
- **The recording sweep.** It links each unlinked `.wav` file to the newest
  `initiated` call of the last hour that started within two minutes of the
  file's modification time. It writes that call's recording locator, status,
  end time and an estimated duration.
- **The browser call store.** It holds the call status shown by the dashboard
  (`idle`, `registering`, `registered`, `calling`, `incoming`, `answering`,
  `connected`, `error`), the current SIP session, the remote party and the
  remote stream. The user's actions and the SIP stack's callbacks drive it.
  `answerCall` is split at its `await accept`: its continuation is an event of
  its own, so a call that ends while `accept` is pending is modelled.

The ORM is modelled as two sequences of rows, users and calls, in table order.
Each `updateMany` is a filter followed by a map over the rows (`Records`).
Clocks, directory listings, file statistics, socket reads and what the SIP
stack answers are all parameters.

Modules:

- **`Wrappers`**: `Option`.
- **`Text`**: the JavaScript string operations the core uses, with their edge
  cases: `indexOf`, `lastIndexOf`, `includes`, `startsWith`, `endsWith`,
  `trim`, `split('\n')` and `parseInt(_, 10)`.
- **`Records`**: rows and bulk writes.
- **`EslCodec`**: the pure frame splitter, header parser, dispatcher and
  command encoder.
- **`EslNative`**: the `EslConnection` class. Its `ProcessData` loop and its
  `ProcessEvent` loop are proved against `EslCodec`.
- **`EslSupervisor`**: the server's connection globals, as a class proved
  against pure transitions.
- **`Presence`**, **`CallCompletion`** and **`RecordingSync`**. The sweep is a
  method with a loop, proved against a left fold.
- **`CallUi`**: the call store, as a class whose methods are proved against a
  pure `Step(state, event)`. A preserved invariant, `Coherent`, comes with it.

## Model

| member | source | states |
|---|---|---|
| Text.IndexOf | api/lib/esl_native.ts:84 | the result is -1 or the first index where the pattern occurs; no occurrence lies before it |
| Text.LastIndexOf | api/lib/esl_native.ts:75 | the result is -1 or an occurrence with none after it |
| Text.Contains | api/lib/esl_native.ts:67-68 | `includes` holds exactly when the pattern occurs somewhere |
| Text.TrimStart | api/lib/esl_native.ts:103-104 | the result is a suffix whose first character is not white space, and everything dropped is white space |
| Text.TrimEnd | api/lib/esl_native.ts:103-104 | the result is a prefix whose last character is not white space, and everything dropped is white space |
| Text.TrimEmptyIffBlank | api/lib/esl_native.ts:90 | `trim()` is empty exactly when every character is white space |
| Text.SplitLinesSound | api/lib/esl_native.ts:97 | `split('\n')` yields at least one piece, no piece holds a line break, and joining the pieces gives the input back |
| Text.SplitJoinLines | api/lib/esl_native.ts:97 | splitting a join of break-free lines gives the lines back |
| Text.DigitPrefix | api/lib/esl.ts:198 | parseInt reads the longest run of digits and stops at the first non-digit |
| Text.ParseIntOfDigits | api/lib/esl.ts:198 | a string that starts with a run of digits, followed by nothing or a non-digit, parses to the value of those digits |
| Text.ParseIntOfDecimal | api/lib/esl.ts:198 | parseInt reads back the decimal rendering of every natural number, whatever non-digit text follows |
| Records.FirstWithExtension | api/lib/esl.ts:219-229 | `findMany(...)[0]` is an account with that extension, or there is none |
| Records.CountMatchingZero | api/lib/esl.ts:215 | the count of an `updateMany` is 0 exactly when no row matches its filter |
| EslCodec.SplitFramesSound | api/lib/esl_native.ts:82-93 | the cut-off frames, each followed by a blank line, and then the remainder rebuild the buffer; the remainder holds no blank line; no frame holds one |
| EslCodec.SplitFramesAssemble | api/lib/esl_native.ts:84-88 | the frames and the remainder concatenate back to the buffer |
| EslCodec.SplitFramesRest | api/lib/esl_native.ts:85 | after the loop the buffer holds no `"\n\n"` |
| EslCodec.SplitFramesBodies | api/lib/esl_native.ts:84-87 | every frame is the text before the first blank line at its point in the loop |
| EslCodec.SplitAssembled | api/lib/esl_native.ts:82-93 | splitting frames written out with their blank lines gives back exactly those frames and that remainder |
| EslCodec.SplitFramesAppend | api/lib/esl_native.ts:28-31 | splitting `b + c` equals splitting `b`, then splitting its remainder plus `c`, with the frames concatenated |
| EslCodec.ChunkingInvariance | api/lib/esl_native.ts:28-31 | feeding a stream in any chunks, carrying the remainder along, cuts the same frames and leaves the same remainder as feeding it whole |
| EslCodec.NonBlankExact | api/lib/esl_native.ts:90-92 | a frame goes on to processEvent exactly when its trim is not empty |
| EslCodec.NonBlankAppend | api/lib/esl_native.ts:90-92 | filtering blank frames commutes with concatenating runs of frames |
| EslCodec.HeadersOfSnoc | api/lib/esl_native.ts:100-107 | one more line adds its header, or adds nothing when it has none |
| EslCodec.FoldHasKey | api/lib/esl_native.ts:100-107 | a key is in the map exactly when some parsed line sets it |
| EslCodec.FoldLastWins | api/lib/esl_native.ts:105 | the value stored is that of the last line setting the key |
| EslCodec.FoldSkipsNone | api/lib/esl_native.ts:101-102 | a line that sets nothing leaves the map unchanged, wherever it sits |
| EslCodec.HeaderPresentIffSomeLine | api/lib/esl_native.ts:100-107 | a header is present exactly when some line has a colon past index 0 with that trimmed key |
| EslCodec.HeaderLastLineWins | api/lib/esl_native.ts:105 | a later duplicate key overwrites an earlier one |
| EslCodec.LineWithoutKeyIgnored | api/lib/esl_native.ts:101-102 | a line without a colon, or with a colon at index 0, can be dropped without changing the headers |
| EslCodec.ParseFormattedHeader | api/lib/esl_native.ts:101-105 | `Key: value` parses back to the key and value even when the value holds colons, because only the first colon splits |
| EslCodec.HeadersOfFormatted | api/lib/esl_native.ts:96-107 | the header lines of a list of headers decode to the map the list denotes, with later keys winning |
| EslCodec.DecodeEncodedFrame | api/lib/esl_native.ts:96-107 | a frame written as joined header lines decodes to its header map |
| EslCodec.Dispatch | api/lib/esl_native.ts:109-124 | at most three emissions; nothing is emitted exactly when `Event-Name` is missing or empty; otherwise `esl::event` then `esl::event::<name>`; a third emission, on `esl::event::CUSTOM::<subclass>`, happens exactly for CUSTOM with a non-empty subclass; all carry the frame's headers |
| EslCodec.ChannelOfInjective | api/lib/esl_native.ts:115 | distinct event names go to distinct channels |
| EslCodec.DeliveredTo | api/lib/esl_native.ts:109-124 | a listener of `esl::event::<n>` receives a frame exactly when its `Event-Name` is `n`, or it is a CUSTOM frame whose subclass `s` makes `n` equal to `CUSTOM::s` |
| EslCodec.HangupListenerReached | api/lib/esl_native.ts:115 | the hangup listener is reached by exactly the frames named CHANNEL_HANGUP_COMPLETE |
| EslCodec.DispatchMapsAppend | api/lib/esl_native.ts:109-124 | the emissions of two runs of header maps are the emissions of each run, in order |
| EslCodec.DecodedFramesAppend | api/lib/esl_native.ts:96-107 | each frame is decoded on its own, so decoding a run of frames commutes with concatenation |
| EslCodec.DispatchAllAppend | api/lib/esl_native.ts:109-124 | the emissions of two runs of frames are the emissions of each run, in order |
| EslCodec.DispatchAllSnoc | api/lib/esl_native.ts:109-124 | one more frame appends its own fan-out after the earlier ones |
| EslCodec.DecodeEncode | api/lib/esl_native.ts:127-133 | `auth <password>\n`, `event <format> <events>\n` and `api <command>\n` are single lines that read back as the command sent |
| EslNative.AuthOutcome | api/lib/esl_native.ts:67-73 | the flag becomes true exactly when it was false and the buffer holds `Content-Type:`, holds `command/reply` and lacks `Access Denied`; a set flag is never touched |
| EslNative.AccessDeniedRejected | api/lib/esl_native.ts:68-73 | an `Access Denied` reply leaves the connection unauthenticated |
| EslNative.AuthCutDropsFrames | api/lib/esl_native.ts:74-79 | during the auth check, everything through the last `"\n\n"` past index 0 is dropped, so no frame of that read is processed |
| EslNative.OnDataAuthenticated | api/lib/esl_native.ts:28-31 | once authenticated, a read appends to the buffer and hands the non-blank frames cut from it on to processEvent |
| EslNative.OnDataAllIsFeed | api/lib/esl_native.ts:28-31 | a run of reads after authentication is the chunked feed of the splitter |
| EslNative.ChunkingAfterAuth | api/lib/esl_native.ts:28-31 | once authenticated, reading already-decoded text in any chunking processes the same frames and leaves the same buffer as reading it whole; this covers socket reads that split no UTF-8 character |
| EslNative.ExpiryEffect | api/lib/esl_native.ts:55-62 | the auth timeout, with no reply accepted, cancels the poll and destroys the socket; after an accepted reply it does nothing |
| EslNative.NoPollRestart | api/lib/esl_native.ts:45-62 | once the poll is cancelled nothing but `connect` reschedules it, so it never fires again |
| EslNative.LateReplyNeverConnects | api/lib/esl_native.ts:45-62 | after the timeout has cancelled the poll, a late auth reply never marks the connection up and never runs the connect callback |
| EslNative.FiresAtMostOnce | api/lib/esl_native.ts:45-52 | along any run of timer ticks, replies and closes, the connect callback runs at most once per `connect` |
| EslNative.EslConnection.constructor | api/lib/esl_native.ts:10-19 | both flags are false; the buffer, the writes and the emissions are empty |
| EslNative.EslConnection.OnTcpConnect | api/lib/esl_native.ts:22-26 | the TCP connect callback writes `auth <password>\n` and changes nothing else |
| EslNative.EslConnection.OnData | api/lib/esl_native.ts:28-31 | the `data` handler leaves the state described by the pure read step; no `"\n\n"` remains in the buffer |
| EslNative.EslConnection.Connect | api/lib/esl_native.ts:21-63 | `connect` schedules the auth poll with an intact socket and changes nothing else |
| EslNative.EslConnection.OnClose | api/lib/esl_native.ts:38-42 | closing resets both `connected` and `authenticated`, and nothing else changes |
| EslNative.EslConnection.AuthPoll | api/lib/esl_native.ts:45-52 | the poll fires exactly when it is still scheduled and a reply was accepted; it then cancels itself, marks the connection up and subscribes `event plain all` |
| EslNative.EslConnection.AuthTimedOut | api/lib/esl_native.ts:55-62 | the timeout gives up exactly when no reply was accepted; it then cancels the poll and destroys the socket, and writes nothing |
| EslNative.EslConnection.Events | api/lib/esl_native.ts:127-130 | the method writes `event <format> <events>\n` |
| EslNative.EslConnection.Api | api/lib/esl_native.ts:132-133 | the method writes `api <command>\n` |
| EslNative.EslConnection.ProcessData | api/lib/esl_native.ts:65-94 | the method leaves the state given by the auth step and then the frame split; the processed frames are the non-blank ones; emissions stay the fan-out of the processed frames; no `"\n\n"` is left |
| EslNative.EslConnection.CheckAuth | api/lib/esl_native.ts:66-79 | the flag and the buffer are the auth step's result, and nothing else changes |
| EslNative.EslConnection.ProcessFrames | api/lib/esl_native.ts:82-93 | the loop leaves the splitter's remainder as the buffer and appends the non-blank frames it cut, in order |
| EslNative.EslConnection.TakeFrame | api/lib/esl_native.ts:84-92 | one pass removes the prefix through the first blank line and processes that frame unless it is blank |
| EslNative.EslConnection.ProcessEvent | api/lib/esl_native.ts:96-125 | the frame is recorded and its fan-out is appended to the emissions |
| EslNative.CollectHeaders | api/lib/esl_native.ts:97-107 | the header loop builds exactly the parsed header map of the lines |
| EslNative.Fanout | api/lib/esl_native.ts:109-124 | the emits are exactly the dispatch of the header map |
| EslNative.InitNativeEsl | api/lib/esl_native.ts:153-160 | a fresh connection with password `ClueCon`, down and unauthenticated, with nothing written, its auth poll scheduled |
| EslSupervisor.AfterDisconnect | api/lib/esl.ts:9-25 | `conn` and `connectionTimeout` end up null; a live connection is closed and marked down; an unlive one leaves `isConnected` as it was |
| EslSupervisor.AfterInitEsl | api/lib/esl.ts:27-51 | the old connection is closed and marked down as disconnect does; then a new timeout and a new connection, distinct handles never handed out before, are both pending; scheduled retries stay |
| EslSupervisor.AfterConnectTimeout | api/lib/esl.ts:34-45 | the connect timeout changes none of the three module variables and closes nothing |
| EslSupervisor.AfterReady | api/lib/esl.ts:51-58 | the ready callback clears the timeout and sets `isConnected` |
| EslSupervisor.DisconnectIdempotent | api/lib/esl.ts:9-25 | a second disconnect changes nothing |
| EslSupervisor.DisconnectLeavesDown | api/lib/esl.ts:9-25 | from a consistent state, disconnect leaves the client down |
| EslSupervisor.TransitionsKeepConsistent | api/lib/esl.ts:27-58 | `isConnected` implies a connection and every handle was handed out, across initESL, the ready callback, the connect timeout, the `error` listener and a retry; initESL leaves the client down with a connection that was never closed |
| EslSupervisor.TimeoutFiresOnce | api/lib/esl.ts:34-45 | a connect timeout fires at most once |
| EslSupervisor.TimeoutSchedulesRetry | api/lib/esl.ts:34-45 | the armed timeout schedules one retry exactly when the connection is not up |
| EslSupervisor.ReadyCancelsTimeout | api/lib/esl.ts:51-55 | after the ready callback no connect timeout schedules anything |
| EslSupervisor.ReconnectKeepsRetries | api/lib/esl.ts:9-31 | disconnect and initESL cancel no scheduled retry |
| EslSupervisor.StaleRetryClosesLiveConnection | api/lib/esl.ts:9-58 | a retry scheduled before a successful reconnect still runs: it closes the live connection and leaves the client down on yet another one |
| EslSupervisor.Supervisor.constructor | api/lib/esl.ts:4-6 | the globals start null, false and null |
| EslSupervisor.Supervisor.Disconnect | api/lib/esl.ts:9-25 | the globals become the pure disconnect of the old ones |
| EslSupervisor.Supervisor.InitEsl | api/lib/esl.ts:27-51 | the globals become the pure initESL of the old ones |
| EslSupervisor.Supervisor.OnReady | api/lib/esl.ts:51-82 | the ready callback's effect, plus the subscription and the three `api` requests, in order |
| EslSupervisor.Supervisor.OnConnectTimeout | api/lib/esl.ts:34-45 | a retry is scheduled exactly when this is the armed timeout, it has not fired yet and the connection is not up |
| EslSupervisor.Supervisor.OnError | api/lib/esl.ts:254-258 | the `error` listener schedules one more retry and changes nothing else |
| EslSupervisor.Supervisor.OnRetry | api/lib/esl.ts:43 | a scheduled retry, when there is one, runs initESL |
| Presence.CloseAt | api/lib/esl.ts:86 | a result of the non-greedy `(.*?)` points at a `</user>` with no line terminator before it |
| Presence.CloseAtFirst | api/lib/esl.ts:86 | no `</user>` starts before the result, so it is the first one; there is no result exactly when a line terminator comes before every `</user>` |
| Presence.CloseAfterPlain | api/lib/esl.ts:86 | an extension without markup or line breaks is closed by the `</user>` after it |
| Presence.CapturesElement | api/lib/esl.ts:86-90 | a `<user>x</user>` element captures `x` and matching resumes right after it |
| Presence.NoTagNoCapture | api/lib/esl.ts:86 | text with no `<` yields no match |
| Presence.CapturesAfterGap | api/lib/esl.ts:86 | text without `<` before a tag is skipped |
| Presence.CapturesOfListing | api/lib/esl.ts:86-90 | a registrations listing yields exactly its extensions, in order |
| Presence.CollectOnline | api/lib/esl.ts:86-90 | the loop's set holds exactly the captured extensions |
| Presence.SnapshotWrites | api/lib/esl.ts:97-108 | the `online` write happens only when the set is non-empty, and then comes first, targeting the listed extensions; the last write always sets every unlisted extension `offline` |
| Presence.SnapshotSyncEffect | api/lib/esl.ts:95-108 | afterwards each user is `online` exactly when listed and `offline` otherwise; ids and extensions are unchanged |
| Presence.EmptySnapshotAllOffline | api/lib/esl.ts:104-108 | with nothing registered every user is `offline` |
| Presence.SyncListedOnline | api/lib/esl.ts:82-108 | for a listing body, a user ends `online` exactly when its extension appears in it |
| Presence.PresenceWrites | api/lib/esl.ts:127-168 | one write for register, unregister and expire, none for other subclasses; it targets `from-user`; the status is `online` exactly for register |
| Presence.PresenceEffect | api/lib/esl.ts:131-168 | users with that extension get the new status and every other user is unchanged |
| Presence.PresenceIdempotent | api/lib/esl.ts:131-168 | a repeated presence event changes nothing more |
| Presence.LaterPresenceWins | api/lib/esl.ts:131-168 | of two presence events for the same user, the later one decides |
| Presence.RegisterScenario | api/lib/esl.ts:131-143 | registering 1001 makes 1001 `online` and leaves 1002 alone |
| CallCompletion.RecordingUrlChoice | api/lib/esl.ts:191-192 | the locator is `/recordings/<variable_uuid>.wav` when that header is non-empty, otherwise `/recordings/<Unique-ID>.wav` |
| CallCompletion.CallDurationValue | api/lib/esl.ts:198 | the duration is 0 without Bill-Sec and is the number when Bill-Sec is its decimal rendering |
| CallCompletion.BillSec42 | api/lib/esl.ts:198 | Bill-Sec `42` gives a duration of 42 |
| CallCompletion.Finalise | api/lib/esl.ts:202-243 | both writes keep the table's length |
| CallCompletion.OnHangup | api/lib/esl.ts:171-252 | the handler keeps the table's length |
| CallCompletion.FinaliseExact | api/lib/esl.ts:202-210 | when some call carries the Call-ID, exactly those calls are completed, whatever their status, and the fallback never runs |
| CallCompletion.FinaliseScope | api/lib/esl.ts:202-243 | a changed row is completed with the event's data; if it lacks the Call-ID, it matched the fallback filter |
| CallCompletion.FinaliseIdempotent | api/lib/esl.ts:202-243 | finalising twice equals finalising once when the fallback filters on `initiated` |
| CallCompletion.ExactMatchEffect | api/lib/esl.ts:202-210 | with a Call-ID match, each call is completed exactly when it carries that Call-ID |
| CallCompletion.FallbackScope | api/lib/esl.ts:215-243 | a call changed without the Call-ID had the first caller's and callee's ids, a start at most 300000 ms back and status `initiated` |
| CallCompletion.FinaliseFallback | api/lib/esl.ts:202-243 | when no call has the Call-ID, the handler's result is the fallback `updateMany` with its count, or the unchanged table with count 0 when the fallback does not run |
| CallCompletion.FallbackEffect | api/lib/esl.ts:214-243 | when the fallback runs, every call matching its filter is completed and no other call changes; the count is the number of matches |
| CallCompletion.NoMatchNoFallbackUnchanged | api/lib/esl.ts:214-226 | with no Call-ID match and no fallback, the table is unchanged and the count is 0 |
| CallCompletion.FallbackCompletesTwo | api/lib/esl.ts:226-240 | two recent `initiated` calls between the same two users are both completed by one hangup, with count 2 |
| CallCompletion.FallbackFilterShape | api/lib/esl.ts:226-233 | the fallback, when it runs, is a caller/callee match restricted to `initiated` calls |
| CallCompletion.HangupIdempotent | api/lib/esl.ts:202-243 | for a fixed `now`, handling the same event twice leaves the table as handling it once |
| CallCompletion.FinaliseKeepsIdentity | api/lib/esl.ts:202-243 | no write changes a call's id, parties, Call-ID or start time |
| CallCompletion.HangupKeepsIdentity | api/lib/esl.ts:202-243 | the handler changes no call's id, parties, Call-ID or start time |
| RecordingSync.WavFiles | api/lib/recording_sync.ts:10 | exactly the entries whose names end in `.wav` are kept |
| RecordingSync.WavFilesCount | api/lib/recording_sync.ts:10 | each `.wav` entry is kept as often as it is listed, and nothing else is kept |
| RecordingSync.Recent | api/lib/recording_sync.ts:18-22 | exactly the `initiated` calls with `startTime >= now - 3600000` are kept |
| RecordingSync.RecentCount | api/lib/recording_sync.ts:18-22 | each recent `initiated` call is kept as often as it occurs in the table, and nothing else is kept |
| RecordingSync.Insert | api/lib/recording_sync.ts:27 | inserting adds exactly the one call |
| RecordingSync.InsertKeepsOrder | api/lib/recording_sync.ts:27 | inserting into a newest-first list keeps it newest first |
| RecordingSync.SortNewestFirst | api/lib/recording_sync.ts:27 | the sort is a permutation |
| RecordingSync.SortIsNewestFirst | api/lib/recording_sync.ts:27 | the sorted list orders by descending start time |
| RecordingSync.CandidatesExact | api/lib/recording_sync.ts:16-28 | the snapshot is newest first and holds each recent `initiated` call as often as the table does, and nothing else |
| RecordingSync.FirstInWindow | api/lib/recording_sync.ts:49-53 | the result is the first candidate with `abs(mtime - startTime) < 120000`, strictly; there is none exactly when no candidate is in the window |
| RecordingSync.ChosenIsNewest | api/lib/recording_sync.ts:49-53 | with a newest-first snapshot, the chosen call starts no earlier than any other candidate in the window |
| RecordingSync.EstimateDuration | api/lib/recording_sync.ts:57-65 | the estimate is at least 1; it is the nearest multiple of 10000 bytes, rounding halves up; sizes under 15000 give 1 |
| RecordingSync.EstimateExamples | api/lib/recording_sync.ts:57-65 | 100000 bytes give 10, 0 bytes give 1, 25000 give 3 and 24999 give 2 |
| RecordingSync.StepWrite | api/lib/recording_sync.ts:39-55 | no write is made for a file that some call already links |
| RecordingSync.SyncRecordings | api/lib/recording_sync.ts:7-72 | the loop leaves the table the sweep describes, and `matched` equals the number of writes |
| RecordingSync.NoWavNoChange | api/lib/recording_sync.ts:10-14 | with no `.wav` file the table is unchanged and nothing is matched |
| RecordingSync.NoWavFiles | api/lib/recording_sync.ts:10 | a listing without `.wav` names filters to nothing |
| RecordingSync.SweepIsWrites | api/lib/recording_sync.ts:32-72 | the final table is the old table with the run's writes applied in order |
| RecordingSync.WritesJustified | api/lib/recording_sync.ts:48-67 | every write links a file of the run to a snapshot call in that file's window |
| RecordingSync.ApplyWriteEffect | api/lib/recording_sync.ts:59-67 | an update by id completes exactly the rows with that id, with the locator, `endTime = mtime` and the estimate; everything else is unchanged |
| RecordingSync.WriteLinks | api/lib/recording_sync.ts:39-67 | after a write the file's locator is linked, so a later pass skips it |
| RecordingSync.StaleSnapshotMatchesTwice | api/lib/recording_sync.ts:17-67 | with a stale snapshot, two files in one call's window are both matched to that call in one run, and the second overwrites the first |
| CallUi.NormaliseTarget | src/store/useCallStore.ts:152-160 | the result is a full SIP address; a target without `@` becomes `sip:<t>@192.168.21.47`; one with `@` gets `sip:` unless it already starts with it |
| CallUi.NormaliseIdempotent | src/store/useCallStore.ts:152-160 | normalising twice equals normalising once |
| CallUi.StepKeepsCoherent | src/store/useCallStore.ts:21-289 | every action, callback and `accept` continuation keeps the store coherent: answering has an incoming session, calling an outgoing one, a remote party exactly with a session, connected a stream, an extension exactly with a client, outgoing sessions a SIP address |
| CallUi.RunKeepsCoherent | src/store/useCallStore.ts:21-289 | every store reachable from a coherent one by any sequence of events is coherent |
| CallUi.InitialCoherent | src/store/useCallStore.ts:21-27 | the initial store is `idle` and coherent |
| CallUi.InitializeOnce | src/store/useCallStore.ts:29-143 | initializeSip does nothing when a client is held; otherwise the status becomes `registering` on success and `error` on failure; after a success a second call does nothing |
| CallUi.DialEffect | src/store/useCallStore.ts:146-226 | makeCall without a client does nothing; on a sent invite it sets `calling`, the raw target as remote identity and an outgoing session to the normalised URI; on failure the status is `registered` |
| CallUi.AnswerOnlyStatus | src/store/useCallStore.ts:229-253 | answerCall changes only the status, and only for an incoming session: `answering` at once; with nothing in between, a thrown `accept` returns it to `incoming` and a resolved one leaves `answering` |
| CallUi.AnswerInterruptedStuck | src/store/useCallStore.ts:229-253 | a call that terminates while `accept` is pending, after which `accept` throws, leaves `incoming` with no session and no remote party; answer, reject and hang up then change nothing |
| CallUi.HangupIdempotent | src/store/useCallStore.ts:255-276 | hangupCall changes the store exactly when there is a session; it clears session, identity and stream, sets `registered`, and a second hangup does nothing |
| CallUi.RejectOnlyIncoming | src/store/useCallStore.ts:278-289 | rejectCall changes the store exactly when the current session is incoming |
| CallUi.IncomingLifecycle | src/store/useCallStore.ts:59-126 | invite, answer with a resolved `accept`, established and terminated pass through `incoming`, `answering`, `connected` and `registered`, leaving no session, identity or stream |
| CallUi.TerminationStream | src/store/useCallStore.ts:118-125 | any termination sets `registered`; an incoming session's clears the stream, an outgoing one's keeps it |
| CallUi.StaleTerminationClearsCurrent | src/store/useCallStore.ts:118-125 | the late termination of an earlier session clears the current session too |
| CallUi.CallStore.constructor | src/store/useCallStore.ts:21-27 | the store starts `idle` with every field null |
| CallUi.CallStore.InitializeSip | src/store/useCallStore.ts:29-144 | the new store is the `SipInit` step of the old one, and it stays coherent |
| CallUi.CallStore.OnRegistered | src/store/useCallStore.ts:130-132 | the status becomes `registered` |
| CallUi.CallStore.OnUnregistered | src/store/useCallStore.ts:134-136 | the status becomes `idle` |
| CallUi.CallStore.MakeCall | src/store/useCallStore.ts:146-227 | the new store is the `Dial` step of the old one, dialling the normalised URI |
| CallUi.CallStore.OnInvite | src/store/useCallStore.ts:59-66 | the incoming session becomes current, the status is `incoming`, and the caller is the remote identity |
| CallUi.CallStore.OnEstablished | src/store/useCallStore.ts:74-117 | the status becomes `connected` with the new stream |
| CallUi.CallStore.OnTerminated | src/store/useCallStore.ts:118-126 | the new store is the reset after termination; only an incoming session's termination clears the stream |
| CallUi.CallStore.AnswerCall | src/store/useCallStore.ts:229-245 | answerCall up to its `await`: the new store is the `AnswerStarts` step of the old one, and it stays coherent |
| CallUi.CallStore.OnAcceptSettled | src/store/useCallStore.ts:245-251 | the rest of a pending answerCall: the new store is the `AcceptSettled` step, which sets `incoming` when `accept` threw, whatever the session is by then |
| CallUi.CallStore.HangupCall | src/store/useCallStore.ts:255-276 | the new store is the `Hangup` step of the old one |
| CallUi.CallStore.RejectCall | src/store/useCallStore.ts:278-289 | the new store is the `Reject` step of the old one |

## Left out

- **Sockets, timers and the `modesl` library.**
  - The real TCP socket and `modesl`'s own framing are not modelled.
  - Timers are modelled by what they leave scheduled: the native client's `polling` flag, the supervisor's connect-timeout handle, the set of timeouts that have fired, and a count of pending retries of `initESL`. Their firing is an event the caller chooses (`AuthPoll`, `AuthTimedOut`, `OnConnectTimeout`, `OnRetry`). The delays themselves (100 ms, 5 s, 10 s) and the order the runtime fires timers in are not modelled.
  - The reconnect placeholder at api/lib/esl_native.ts:170-176 only logs and is not modelled.
  - The recording sweep's cron schedule is not modelled.
- **`api()` replies.** The native client's `api()` answers with an empty body after 100 ms; only the command it writes is modelled. The replies to `sofia status profile internal reg` and `xmlstatus` are ignored by the server. The snapshot sync is modelled on the body it is given.
- **Socket errors and other native-client side effects.**
  - `socket.destroy()` on the auth timeout is modelled as the `destroyed` flag; what the destroyed socket does afterwards is not modelled. The `error` the native client emits is not modelled as a value; its effect on the server, one more scheduled retry, is (`OnError`).
  - The native client's `disconnect()` is not modelled.
  - The unused `eventCallbacks` field is not modelled.
- **The server's logging listener** on `esl::event` (api/lib/esl.ts:116-125) only logs.
- **Logging and caught exceptions.** Console output is not modelled, nor is any ORM error that a `try` swallows.
- **Presence.PresenceWrites:** requires `from-user` to be present. With the header absent, the ORM receives an `undefined` filter, whose meaning belongs to the ORM.
- **CallCompletion.OnHangup:** requires `variable_sip_call_id` to be present. It also requires `Bill-Sec`, when present and non-empty, to parse as a number. A Bill-Sec with no leading digits gives NaN, and what the ORM stores for NaN is not modelled.
- **CallCompletion.OnHangup:** uses one clock reading `now` for both `new Date()` and `Date.now()`.
- **CallCompletion.OnHangup:** the `Duration` and `variable_bridge_uuid` headers are only logged and are not modelled.
- **RecordingSync.SortNewestFirst:** calls with equal start times keep their table order. The database's order for ties is unspecified.
- **RecordingSync.SyncRecordings:** uses a single clock reading, and takes each file's modification time and size as given.
- **RecordingSync.SyncRecordings:** a file's `mtime` stands for `fileTime.getTime()`, the modification time in whole milliseconds. The source checks the window twice, on `fileTime` and on `stats.mtimeMs`, which may carry a fraction of a millisecond. The model keeps only the first check. This is exact: `fileTime` (api/lib/recording_sync.ts:37) is built from `stats.mtime`, which the runtime rounds from `mtimeMs` to the nearest millisecond, so the two differ by less than one millisecond in either direction. With whole-millisecond times, the first check means `|fileTime - startTime| <= 119999`, and then `|mtimeMs - startTime| < 120000` follows.
- **RecordingSync.SyncRecordings:** the `caller`/`callee` extensions the query includes are only logged.
- **RecordingSync.SyncRecordings:** deletions between the snapshot and the update are not modelled. In the source such an `update` by id throws, and the `catch` at api/lib/recording_sync.ts:77 aborts the rest of the sweep; the model's update by id of a missing call leaves the table unchanged and goes on.
- **The exactly-once interleaving** of the hangup handler and the recording sweep is not claimed. Each path is modelled on its own. `StaleSnapshotMatchesTwice` shows that one sweep can write one call twice.
- **EslNative.ChunkingAfterAuth:** socket reads are modelled as already-decoded text. The source decodes each `Buffer` on its own (api/lib/esl_native.ts:29), so a multi-byte UTF-8 character split across two reads becomes U+FFFD replacement characters. The lemma, and `OnData`, therefore cover only reads that split no character.
- **CallUi.CallStore.InitializeSip:** `sipClient.connect` is one atomic step.
  - Registration callbacks arriving before it resolves are not modelled.
  - Two overlapping `initializeSip` calls are not modelled.
  - The SIP client's configuration (URI, transport, password default) is not modelled.
- **CallUi.CallStore.MakeCall:** `inviter.invite` is one atomic step. A callback that runs while it is pending, such as a new incoming call, is not modelled. If `invite` then throws, the catch sets `registered` over whatever that callback left, and the model does not capture that.
- **CallUi.CallStore.HangupCall:** `bye`, `reject` and `cancel` are assumed to resolve. If one throws, the source leaves the store unchanged, and the model does not capture that.
- **CallUi.CallStore.RejectCall:** `reject` is assumed to resolve. If it throws, the source leaves the store unchanged, and the model does not capture that.
- **Media, the call record POST and the session's protocol state.**
  - `MediaStream` tracks, `Audio` playback and its cleanup are not modelled; a stream is an opaque handle.
  - The fire-and-forget `POST /calls` from `makeCall` is not modelled.
  - The session's own SIP state, which decides between `bye`, `reject` and `cancel`, is not modelled. It does not change the store.
- **HTTP routes, UI components, client wrappers, scripts and type declarations** lie outside this model.

## Where the code and its documented intent differ

The documented intent below comes from the system's design documentation, which is not one of the source files modelled here, and from the source's own comments where cited. The model follows the code in each case.

- **Duration estimate.** The documented intent is `size ÷ 10000` floored to at least 1. The code uses `Math.round`, so 24999 bytes give 2 and 25000 give 3 (`EstimateExamples`).
- **Unparseable Bill-Sec.** The documented intent is a default of 0. The code's `parseInt` gives NaN; only an absent or empty header gives 0.
- **Finalising exactly once.** The documented intent is that a call is finalised exactly once, by conditional writes scoped by status. In the code:
  - the exact match ignores status;
  - the sweep updates by id without re-checking status;
  - the sweep works from a stale snapshot, so one call can be completed again and its locator overwritten (`StaleSnapshotMatchesTwice`).
- **One record per hangup.** The documented intent is that the hangup handler never updates more than one record per event. The fallback's `updateMany` at api/lib/esl.ts:227-240 completes every recent `initiated` call between the two users (`FallbackEffect`); two such calls are both completed by one hangup (`FallbackCompletesTwo`).
- **Auth reply framing.** The documented intent is that the auth step consumes only the reply frame. The code drops everything up to the last blank line of the buffer, including any events that arrived in the same read (`AuthCutDropsFrames`).
- **Reconnect timers.** The comment at api/lib/esl.ts:8 says the existing connection is disconnected before reconnecting, and the documented intent is that a reconnect leaves no duplicate timers. The code's `disconnect` clears only the connect timeout, not retries already scheduled (`ReconnectKeepsRetries`). A stale retry then closes a connection that came up in the meantime (`StaleRetryClosesLiveConnection`).

=== FILE: call_completion.dfy ===
/**
 * The CHANNEL_HANGUP_COMPLETE handler: it works out the recording locator and
 * the billed duration from the event, finalises the call records with the
 * event's SIP Call-ID, and when there are none falls back to a recent
 * `initiated` call between the same two users.
 */
module CallCompletion {
  import opened Wrappers
  import opened Text
  import opened Records

  /** The fallback only looks five minutes back. */
  const FallbackWindow := 5 * 60 * 1000

  /** A header value that is present and not empty (JavaScript truthiness of a string). */
  predicate Truthy(h: map<string, string>, k: string) {
    k in h && h[k] != ""
  }

  /**
   * The channel whose recording this is: `variable_uuid` when truthy, otherwise
   * `Unique-ID`; a missing `Unique-ID` prints as `undefined`.
   */
  function RecordingUuid(h: map<string, string>): string {
    if Truthy(h, "variable_uuid") then h["variable_uuid"]
    else if "Unique-ID" in h then h["Unique-ID"]
    else "undefined"
  }

  function RecordingUrl(h: map<string, string>): string {
    "/recordings/" + RecordingUuid(h) + ".wav"
  }

  /** The locator names the original channel when the event has one, and the hanging-up channel otherwise. */
  lemma RecordingUrlChoice(h: map<string, string>)
    ensures Truthy(h, "variable_uuid") ==> RecordingUrl(h) == "/recordings/" + h["variable_uuid"] + ".wav"
    ensures !Truthy(h, "variable_uuid") && "Unique-ID" in h ==> RecordingUrl(h) == "/recordings/" + h["Unique-ID"] + ".wav"
    ensures StartsWith(RecordingUrl(h), "/recordings/") && EndsWith(RecordingUrl(h), ".wav")
  {
    var u := RecordingUrl(h);
    assert u[..|"/recordings/"|] == "/recordings/";
    assert u[|u| - 4..] == ".wav";
  }

  /** `billsec || '0'`. */
  function BillSecText(h: map<string, string>): string {
    if Truthy(h, "Bill-Sec") then h["Bill-Sec"] else "0"
  }

  /** What the handler needs of an event: a Call-ID to match on and a Bill-Sec that parses. */
  predicate HangupDefined(h: map<string, string>) {
    "variable_sip_call_id" in h && ParseInt(BillSecText(h)).Some?
  }

  /** `parseInt(billsec || '0', 10)`. */
  function CallDuration(h: map<string, string>): int
    requires ParseInt(BillSecText(h)).Some?
  {
    ParseInt(BillSecText(h)).value
  }

  /** Without Bill-Sec the duration is 0; with a decimal Bill-Sec it is that number. */
  lemma CallDurationValue(h: map<string, string>, n: nat)
    ensures !Truthy(h, "Bill-Sec") ==> ParseInt(BillSecText(h)) == Some(0)
    ensures "Bill-Sec" in h && h["Bill-Sec"] == DecimalString(n) ==> ParseInt(BillSecText(h)) == Some(n)
  {
    if !Truthy(h, "Bill-Sec") {
      assert DecimalString(0) == "0";
      ParseIntOfDecimal(0, []);
      assert DecimalString(0) + [] == "0";
    }
    if "Bill-Sec" in h && h["Bill-Sec"] == DecimalString(n) {
      ParseIntOfDecimal(n, []);
      assert DecimalString(n) + [] == DecimalString(n);
    }
  }

  /** Bill-Sec 42 is recorded as 42 seconds. */
  lemma BillSec42(h: map<string, string>)
    requires "Bill-Sec" in h && h["Bill-Sec"] == "42"
    ensures ParseInt(BillSecText(h)) == Some(42)
  {
    assert DecimalString(42) == DecimalString(4) + ['2'];
    assert DecimalString(42) == "42";
    CallDurationValue(h, 42);
  }

  /** What a completed call gets written. */
  function CompletionOf(h: map<string, string>, now: int): Completion
    requires HangupDefined(h)
  {
    Completion(RecordingUrl(h), now, CallDuration(h))
  }

  /** The fallback filter, when the fallback runs at all. */
  function FallbackFilter(h: map<string, string>, users: seq<User>, now: int): Option<CallFilter> {
    if Truthy(h, "Caller-Username") && Truthy(h, "Caller-Destination-Number") then
      var caller := FirstWithExtension(users, h["Caller-Username"]);
      var callee := FirstWithExtension(users, h["Caller-Destination-Number"]);
      if caller.Some? && callee.Some? then
        Some(ByParties(caller.value.id, callee.value.id, now - FallbackWindow, Initiated))
      else None
    else None
  }

  /** The result of the handler: the calls table after it, and the count of the last updateMany. */
  datatype Outcome = Outcome(calls: seq<Call>, count: nat)

  /**
   * The two writes of the handler, given the Call-ID, the fallback filter (if
   * the fallback may run) and the data to write: the exact updateMany, and
   * only when it matched nothing, the fallback updateMany.
   */
  function Finalise(sipCallId: string, fallback: Option<CallFilter>, w: Completion, calls: seq<Call>): (r: Outcome)
    ensures |r.calls| == |calls|
  {
    var exact := BySipCallId(sipCallId);
    var n := CountMatching(calls, exact);
    var once := UpdateCalls(calls, exact, w);
    if n == 0 then
      match fallback
      case Some(f) => Outcome(UpdateCalls(once, f, w), CountMatching(once, f))
      case None => Outcome(once, 0)
    else Outcome(once, n)
  }

  /** The handler on one event, with `now` the single clock reading for both `new Date()` and `Date.now()`. */
  function OnHangup(h: map<string, string>, users: seq<User>, calls: seq<Call>, now: int): (r: Outcome)
    requires HangupDefined(h)
    ensures |r.calls| == |calls|
  {
    Finalise(h["variable_sip_call_id"], FallbackFilter(h, users, now), CompletionOf(h, now), calls)
  }

  lemma FinaliseExact(s: string, fallback: Option<CallFilter>, w: Completion, calls: seq<Call>)
    requires exists i :: 0 <= i < |calls| && calls[i].sipCallId == Some(s)
    ensures var r := Finalise(s, fallback, w, calls);
            r.count > 0
            && forall i :: 0 <= i < |calls| ==>
                 r.calls[i] == if calls[i].sipCallId == Some(s) then Complete(calls[i], w) else calls[i]
  {
    CountMatchingZero(calls, BySipCallId(s));
  }

  lemma FinaliseScope(s: string, fallback: Option<CallFilter>, w: Completion, calls: seq<Call>, i: int)
    requires 0 <= i < |calls|
    requires Finalise(s, fallback, w, calls).calls[i] != calls[i]
    ensures Finalise(s, fallback, w, calls).calls[i] == Complete(calls[i], w)
    ensures calls[i].sipCallId != Some(s) ==>
              (forall j :: 0 <= j < |calls| ==> calls[j].sipCallId != Some(s))
              && fallback.Some? && CallMatches(fallback.value, calls[i])
  {
    CountMatchingZero(calls, BySipCallId(s));
  }

  lemma FinaliseIdempotent(s: string, f: Option<CallFilter>, w: Completion, calls: seq<Call>)
    requires f.Some? ==> f.value.ByParties? && f.value.status == Initiated
    ensures var once := Finalise(s, f, w, calls).calls;
            Finalise(s, f, w, once).calls == once
  {
    var exact := BySipCallId(s);
    var once := Finalise(s, f, w, calls).calls;
    var twice := Finalise(s, f, w, once).calls;
    CountMatchingZero(calls, exact);
    CountMatchingZero(once, exact);
    if CountMatching(calls, exact) == 0 {
      assert forall j :: 0 <= j < |once| ==> once[j].sipCallId == calls[j].sipCallId;
      match f
      case Some(g) =>
        forall j | 0 <= j < |once| ensures twice[j] == once[j] {
          if CallMatches(g, calls[j]) {
            assert once[j].status == Completed;
          }
        }
      case None =>
    } else {
      var j :| 0 <= j < |calls| && CallMatches(exact, calls[j]);
      assert CallMatches(exact, once[j]);
    }
  }

  /** When some call carries the event's Call-ID, exactly those calls are finalised, whatever their status was. */
  lemma ExactMatchEffect(h: map<string, string>, users: seq<User>, calls: seq<Call>, now: int)
    requires HangupDefined(h)
    requires exists i :: 0 <= i < |calls| && calls[i].sipCallId == Some(h["variable_sip_call_id"])
    ensures var r := OnHangup(h, users, calls, now);
            r.count > 0
            && forall i :: 0 <= i < |calls| ==>
                 r.calls[i] == if calls[i].sipCallId == Some(h["variable_sip_call_id"])
                               then Complete(calls[i], CompletionOf(h, now)) else calls[i]
  {
    FinaliseExact(h["variable_sip_call_id"], FallbackFilter(h, users, now), CompletionOf(h, now), calls);
  }

  /**
   * The fallback's reach: a call the handler changes either carries the event's
   * Call-ID, or no call does, both parties are named and known, and it is an
   * `initiated` call between the first users with those extensions started in
   * the last five minutes.
   */
  lemma FallbackScope(h: map<string, string>, users: seq<User>, calls: seq<Call>, now: int, i: int)
    requires HangupDefined(h) && 0 <= i < |calls|
    requires OnHangup(h, users, calls, now).calls[i] != calls[i]
    ensures calls[i].sipCallId != Some(h["variable_sip_call_id"]) ==>
              (forall j :: 0 <= j < |calls| ==> calls[j].sipCallId != Some(h["variable_sip_call_id"]))
              && Truthy(h, "Caller-Username") && Truthy(h, "Caller-Destination-Number")
              && FirstWithExtension(users, h["Caller-Username"]).Some?
              && FirstWithExtension(users, h["Caller-Destination-Number"]).Some?
              && calls[i].callerId == FirstWithExtension(users, h["Caller-Username"]).value.id
              && calls[i].calleeId == FirstWithExtension(users, h["Caller-Destination-Number"]).value.id
              && calls[i].startTime >= now - FallbackWindow
              && calls[i].status == Initiated
    ensures OnHangup(h, users, calls, now).calls[i] == Complete(calls[i], CompletionOf(h, now))
  {
    FinaliseScope(h["variable_sip_call_id"], FallbackFilter(h, users, now), CompletionOf(h, now), calls, i);
  }

  /** With no call carrying the Call-ID, the exact write changes nothing and the fallback write, if any, is the outcome. */
  lemma FinaliseFallback(s: string, fallback: Option<CallFilter>, w: Completion, calls: seq<Call>)
    requires forall j :: 0 <= j < |calls| ==> calls[j].sipCallId != Some(s)
    ensures fallback.Some? ==>
              Finalise(s, fallback, w, calls) == Outcome(UpdateCalls(calls, fallback.value, w), CountMatching(calls, fallback.value))
    ensures fallback.None? ==> Finalise(s, fallback, w, calls) == Outcome(calls, 0)
  {
    CountMatchingZero(calls, BySipCallId(s));
    assert UpdateCalls(calls, BySipCallId(s), w) == calls;
  }

  /**
   * The fallback's effect: with no call carrying the event's Call-ID and both
   * parties known, every call the party filter matches is finalised, all of
   * them and not only one, and the reported count is their number.
   */
  lemma FallbackEffect(h: map<string, string>, users: seq<User>, calls: seq<Call>, now: int, f: CallFilter)
    requires HangupDefined(h)
    requires forall j :: 0 <= j < |calls| ==> calls[j].sipCallId != Some(h["variable_sip_call_id"])
    requires FallbackFilter(h, users, now) == Some(f)
    ensures var r := OnHangup(h, users, calls, now);
            r.count == CountMatching(calls, f)
            && forall i :: 0 <= i < |calls| ==>
                 r.calls[i] == if CallMatches(f, calls[i]) then Complete(calls[i], CompletionOf(h, now)) else calls[i]
  {
    FinaliseFallback(h["variable_sip_call_id"], Some(f), CompletionOf(h, now), calls);
  }

  /** With no Call-ID match and no fallback filter (a party unnamed or unknown), the table is left as it was. */
  lemma NoMatchNoFallbackUnchanged(h: map<string, string>, users: seq<User>, calls: seq<Call>, now: int)
    requires HangupDefined(h)
    requires forall j :: 0 <= j < |calls| ==> calls[j].sipCallId != Some(h["variable_sip_call_id"])
    requires FallbackFilter(h, users, now).None?
    ensures OnHangup(h, users, calls, now) == Outcome(calls, 0)
  {
    FinaliseFallback(h["variable_sip_call_id"], None, CompletionOf(h, now), calls);
  }

  /**
   * Two calls the party filter both matches, and a hangup event whose Call-ID
   * matches neither: the fallback finalises both, so one event completes two
   * call records.
   */
  lemma FallbackCompletesTwo(h: map<string, string>, users: seq<User>, c1: Call, c2: Call, now: int, f: CallFilter)
    requires HangupDefined(h)
    requires FallbackFilter(h, users, now) == Some(f)
    requires c1.sipCallId != Some(h["variable_sip_call_id"]) && c2.sipCallId != Some(h["variable_sip_call_id"])
    requires CallMatches(f, c1) && CallMatches(f, c2)
    ensures var r := OnHangup(h, users, [c1, c2], now);
            var w := CompletionOf(h, now);
            r.count == 2 && r.calls == [Complete(c1, w), Complete(c2, w)]
  {
    var calls := [c1, c2];
    var w := CompletionOf(h, now);
    FallbackEffect(h, users, calls, now, f);
    var r := OnHangup(h, users, calls, now);
    assert r.calls[0] == Complete(c1, w) && r.calls[1] == Complete(c2, w);
    assert calls[..1] == [c1];
    assert [c1][..0] == [];
    assert CountMatching([c1], f) == 1;
  }

  /** The fallback, when it runs, only looks at `initiated` calls between two given users. */
  lemma FallbackFilterShape(h: map<string, string>, users: seq<User>, now: int)
    ensures var f := FallbackFilter(h, users, now);
            f.Some? ==> f.value.ByParties? && f.value.status == Initiated
  {
  }

  /** For a fixed `now`, the same event handled twice leaves the table as handling it once. */
  lemma HangupIdempotent(h: map<string, string>, users: seq<User>, calls: seq<Call>, now: int)
    requires HangupDefined(h)
    ensures var once := OnHangup(h, users, calls, now).calls;
            OnHangup(h, users, once, now).calls == once
  {
    var s, f, w := h["variable_sip_call_id"], FallbackFilter(h, users, now), CompletionOf(h, now);
    FallbackFilterShape(h, users, now);
    FinaliseIdempotent(s, f, w, calls);
    var once := Finalise(s, f, w, calls).calls;
    assert OnHangup(h, users, calls, now).calls == once;
    assert OnHangup(h, users, once, now).calls == Finalise(s, f, w, once).calls;
  }

  lemma FinaliseKeepsIdentity(s: string, fallback: Option<CallFilter>, w: Completion, calls: seq<Call>)
    ensures var r := Finalise(s, fallback, w, calls).calls;
            forall i :: 0 <= i < |calls| ==>
              r[i].id == calls[i].id && r[i].callerId == calls[i].callerId && r[i].calleeId == calls[i].calleeId
              && r[i].sipCallId == calls[i].sipCallId && r[i].startTime == calls[i].startTime
  {
    var r := Finalise(s, fallback, w, calls).calls;
    forall i | 0 <= i < |calls|
      ensures r[i].id == calls[i].id && r[i].callerId == calls[i].callerId && r[i].calleeId == calls[i].calleeId
              && r[i].sipCallId == calls[i].sipCallId && r[i].startTime == calls[i].startTime
    {
      if r[i] != calls[i] {
        FinaliseScope(s, fallback, w, calls, i);
      }
    }
  }

  /** The handler changes no call's identity, parties, Call-ID or start time. */
  lemma HangupKeepsIdentity(h: map<string, string>, users: seq<User>, calls: seq<Call>, now: int)
    requires HangupDefined(h)
    ensures var r := OnHangup(h, users, calls, now).calls;
            forall i :: 0 <= i < |calls| ==>
              r[i].id == calls[i].id && r[i].callerId == calls[i].callerId && r[i].calleeId == calls[i].calleeId
              && r[i].sipCallId == calls[i].sipCallId && r[i].startTime == calls[i].startTime
  {
    FinaliseKeepsIdentity(h["variable_sip_call_id"], FallbackFilter(h, users, now), CompletionOf(h, now), calls);
  }
}

=== FILE: call_ui.dfy ===
/**
 * The browser's call store: the call status the dashboard shows, the current
 * SIP session and what is known about the remote party, driven by the user's
 * actions (initialise, dial, answer, hang up, reject) and by the SIP stack's
 * callbacks (registered, unregistered, invite, established, terminated).
 * Sessions are opaque: an id, whether they are an incoming Invitation or an
 * outgoing Inviter, and the remote party they were created for. What the SIP
 * stack answers to each request is an input of the action.
 */
module CallUi {
  import opened Wrappers
  import opened Text

  datatype Status = Idle | Registering | Registered | Calling | Incoming | Answering | Connected | Error

  /** sip.js's two session classes: an incoming Invitation or an outgoing Inviter. */
  datatype Kind = Invitation | Inviter

  /** A session: `remote` is the caller's user part for an Invitation, the dialled URI for an Inviter. */
  datatype Session = Session(id: nat, kind: Kind, remote: string)

  /**
   * The store's fields; `client` says whether a SIP client is held,
   * `remoteStream` is an opaque stream handle. `acceptsPending` is not a store
   * field: it counts the answerCall invocations still awaiting `accept`, whose
   * continuations the runtime will resume.
   */
  datatype UiState = UiState(
    client: bool,
    session: Option<Session>,
    status: Status,
    remoteIdentity: Option<string>,
    remoteStream: Option<nat>,
    extension: Option<string>,
    acceptsPending: nat)

  const Initial := UiState(false, None, Idle, None, None, None, 0)

  /** The fixed SIP domain dialled extensions are placed in. */
  const SipDomain := "192.168.21.47"

  /** A full SIP address: the `sip:` scheme and a host part. */
  predicate IsSipUri(u: string) {
    StartsWith(u, "sip:") && Contains(u, "@")
  }

  /**
   * makeCall's dial-target normalisation: a bare extension is placed in the
   * SIP domain, an address with a host but no scheme gets `sip:`, and a full
   * SIP address is dialled as given.
   */
  function NormaliseTarget(t: string): (u: string)
    ensures IsSipUri(u)
    ensures !Contains(t, "@") ==> u == "sip:" + t + "@" + SipDomain
    ensures Contains(t, "@") ==> u == (if StartsWith(t, "sip:") then t else "sip:" + t)
  {
    if !Contains(t, "@") then
      var u := "sip:" + t + "@" + SipDomain;
      assert u[|"sip:" + t|..|"sip:" + t| + 1] == "@";
      assert IsAt(u, "@", |"sip:" + t|);
      assert u[..4] == "sip:";
      u
    else if !StartsWith(t, "sip:") then
      OccursAfterPrefix("sip:", t, "@");
      assert ("sip:" + t)[..4] == "sip:";
      "sip:" + t
    else t
  }

  /** Normalising a normalised target changes nothing. */
  lemma NormaliseIdempotent(t: string)
    ensures NormaliseTarget(NormaliseTarget(t)) == NormaliseTarget(t)
  {
  }

  /** How `sipClient.call(...)` and `inviter.invite(...)` turn out. */
  datatype DialOutcome = CallThrows | InviteFails | InviteSent

  /** The actions and the SIP stack's callbacks, each with the outcome the stack gives it. */
  datatype Event =
    | SipInit(ext: string, connected: bool)
    | UaRegistered
    | UaUnregistered
    | Dial(target: string, id: nat, outcome: DialOutcome)
    | InviteArrives(id: nat, from: string)
    | SessionEstablished(of: Session, stream: nat)
    | SessionTerminated(of: Session)
    | AnswerStarts                   // answerCall up to its `await accept`
    | AcceptSettled(resolved: bool)  // a pending `accept` resolves, or throws
    | Hangup
    | Reject

  /** The current session is an incoming one. */
  predicate HasInvitation(s: UiState) {
    s.session.Some? && s.session.value.kind == Invitation
  }

  /** The reset hangup, reject and termination apply; an Inviter's termination keeps the stream. */
  function Reset(s: UiState, clearStream: bool): UiState {
    s.(session := None, status := Registered, remoteIdentity := None,
       remoteStream := if clearStream then None else s.remoteStream)
  }

  /** The store after one action or callback. */
  function Step(s: UiState, e: Event): UiState {
    match e
    case SipInit(ext, connected) =>
      if s.client then s
      else if connected then s.(status := Registering, client := true, extension := Some(ext))
      else s.(status := Error)
    case UaRegistered => s.(status := Registered)
    case UaUnregistered => s.(status := Idle)
    case Dial(target, id, outcome) =>
      if !s.client then s
      else
        (match outcome
        case CallThrows => s.(status := Registered)
        case InviteFails =>
          s.(session := Some(Session(id, Inviter, NormaliseTarget(target))), status := Registered,
             remoteIdentity := Some(target))
        case InviteSent =>
          s.(session := Some(Session(id, Inviter, NormaliseTarget(target))), status := Calling,
             remoteIdentity := Some(target)))
    case InviteArrives(id, from) =>
      s.(session := Some(Session(id, Invitation, from)), status := Incoming, remoteIdentity := Some(from))
    case SessionEstablished(_, stream) => s.(status := Connected, remoteStream := Some(stream))
    case SessionTerminated(sess) => Reset(s, sess.kind == Invitation)
    case AnswerStarts =>
      if HasInvitation(s) then s.(status := Answering, acceptsPending := s.acceptsPending + 1) else s
    case AcceptSettled(resolved) =>
      if s.acceptsPending == 0 then s
      else s.(acceptsPending := s.acceptsPending - 1, status := if resolved then s.status else Incoming)
    case Hangup => if s.session.Some? then Reset(s, true) else s
    case Reject => if HasInvitation(s) then Reset(s, true) else s
  }

  /** The store after a sequence of events, in order. */
  function Run(s: UiState, es: seq<Event>): UiState
    decreases |es|
  {
    if es == [] then s else Run(Step(s, es[0]), es[1..])
  }

  /**
   * What the store's fields say about each other: an answering status has an
   * incoming session (a ringing one need not: see AnswerInterruptedStuck), a calling status an outgoing one, a remote
   * party is known exactly when there is a session, a connected status has a
   * stream, an extension is stored exactly with a client, and every outgoing
   * session dials a full SIP address.
   */
  predicate Coherent(s: UiState) {
    && (s.status == Answering ==> HasInvitation(s))
    && (s.status == Calling ==> s.session.Some? && s.session.value.kind == Inviter)
    && (s.session.None? <==> s.remoteIdentity.None?)
    && (s.status == Connected ==> s.remoteStream.Some?)
    && (s.client <==> s.extension.Some?)
    && (s.session.Some? && s.session.value.kind == Inviter ==> IsSipUri(s.session.value.remote))
  }

  lemma StepKeepsCoherent(s: UiState, e: Event)
    requires Coherent(s)
    ensures Coherent(Step(s, e))
  {
  }

  /** Every reachable store is coherent. */
  lemma {:induction false} RunKeepsCoherent(s: UiState, es: seq<Event>)
    requires Coherent(s)
    ensures Coherent(Run(s, es))
    decreases |es|
  {
    if es != [] {
      StepKeepsCoherent(s, es[0]);
      RunKeepsCoherent(Step(s, es[0]), es[1..]);
    }
  }

  lemma InitialCoherent()
    ensures Coherent(Initial) && Initial.status == Idle
  {
  }

  /** initializeSip does nothing once a client is held, and a successful one is never repeated. */
  lemma InitializeOnce(s: UiState, ext: string, connected: bool, ext2: string, connected2: bool)
    requires Coherent(s)
    ensures s.client ==> Step(s, SipInit(ext, connected)) == s
    ensures !s.client ==> Step(s, SipInit(ext, connected)).status == (if connected then Registering else Error)
    ensures var t := Step(s, SipInit(ext, true));
            Step(t, SipInit(ext2, connected2)) == t && t.client && t.extension.Some?
  {
  }

  /** makeCall without a client does nothing; with one, the raw target is shown while the normalised URI is dialled. */
  lemma DialEffect(s: UiState, target: string, id: nat, outcome: DialOutcome)
    ensures !s.client ==> Step(s, Dial(target, id, outcome)) == s
    ensures s.client && outcome == InviteSent ==>
      var t := Step(s, Dial(target, id, outcome));
      t.status == Calling && t.remoteIdentity == Some(target)
      && t.session == Some(Session(id, Inviter, NormaliseTarget(target))) && IsSipUri(t.session.value.remote)
    ensures s.client && outcome != InviteSent ==> Step(s, Dial(target, id, outcome)).status == Registered
  {
  }

  /**
   * answerCall changes only the status, and only when the current session is
   * incoming: `answering` at once, and back to `incoming` when `accept` throws
   * with nothing in between; a resolved `accept` writes nothing.
   */
  lemma AnswerOnlyStatus(s: UiState, resolved: bool)
    ensures Step(s, AnswerStarts).(status := s.status, acceptsPending := s.acceptsPending) == s
    ensures Step(s, AnswerStarts).status == (if HasInvitation(s) then Answering else s.status)
    ensures Step(s, AcceptSettled(resolved)).(status := s.status, acceptsPending := s.acceptsPending) == s
    ensures HasInvitation(s) ==>
              var t := Step(Step(s, AnswerStarts), AcceptSettled(resolved));
              t == s.(status := if resolved then Answering else Incoming)
  {
  }

  /**
   * The catch of answerCall sets `incoming` without looking at the session: a
   * call that ends while `accept` is pending and then makes it throw leaves a
   * ringing status with no session, which answer, reject and hang up all ignore.
   */
  lemma AnswerInterruptedStuck(s: UiState, id: nat, from: string)
    ensures var sess := Session(id, Invitation, from);
            var s1 := Step(s, InviteArrives(id, from));
            var s2 := Step(s1, AnswerStarts);
            var s3 := Step(s2, SessionTerminated(sess));
            var s4 := Step(s3, AcceptSettled(false));
            && s2.status == Answering && s3.status == Registered
            && s4.status == Incoming && s4.session.None? && s4.remoteIdentity.None?
            && Step(s4, AnswerStarts) == s4 && Step(s4, Reject) == s4 && Step(s4, Hangup) == s4
  {
  }

  /** hangupCall changes the store exactly when there is a session, and a second hangup changes nothing. */
  lemma HangupIdempotent(s: UiState)
    ensures Step(s, Hangup) == s <==> s.session.None?
    ensures Step(Step(s, Hangup), Hangup) == Step(s, Hangup)
    ensures Step(s, Hangup).session.None? && Step(s, Hangup).remoteIdentity == (if s.session.Some? then None else s.remoteIdentity)
    ensures s.session.Some? ==> Step(s, Hangup).status == Registered && Step(s, Hangup).remoteStream.None?
  {
  }

  /** rejectCall changes the store exactly when the current session is incoming. */
  lemma RejectOnlyIncoming(s: UiState)
    ensures Step(s, Reject) != s <==> HasInvitation(s)
  {
    if HasInvitation(s) {
      assert Step(s, Reject).session != s.session;
    }
  }

  /**
   * An incoming call that is answered, established and terminated passes
   * through incoming, answering, connected and registered, and leaves no
   * session, no remote party and no stream behind.
   */
  lemma IncomingLifecycle(s: UiState, id: nat, from: string, stream: nat)
    ensures var sess := Session(id, Invitation, from);
            var s1 := Step(s, InviteArrives(id, from));
            var s2 := Step(Step(s1, AnswerStarts), AcceptSettled(true));
            var s3 := Step(s2, SessionEstablished(sess, stream));
            var s4 := Step(s3, SessionTerminated(sess));
            && s1.status == Incoming && s2.status == Answering
            && s3.status == Connected && s3.remoteStream == Some(stream)
            && s4.status == Registered && s4.session.None? && s4.remoteIdentity.None? && s4.remoteStream.None?
  {
  }

  /** The termination of an outgoing session keeps the last stream; an incoming one's clears it. */
  lemma TerminationStream(s: UiState, sess: Session)
    ensures Step(s, SessionTerminated(sess)).remoteStream == (if sess.kind == Inviter then s.remoteStream else None)
    ensures Step(s, SessionTerminated(sess)).status == Registered
  {
  }

  /**
   * A termination callback does not check which session it belongs to: the
   * late termination of an earlier session clears the current one too.
   */
  lemma StaleTerminationClearsCurrent(s: UiState, earlier: Session)
    requires s.session.Some? && s.session.value.id != earlier.id
    ensures Step(s, SessionTerminated(earlier)).session.None?
  {
  }

  /** The store object; its methods perform one action or callback each. */
  class CallStore {
    var client: bool
    var currentSession: Option<Session>
    var status: Status
    var remoteIdentity: Option<string>
    var remoteStream: Option<nat>
    var extension: Option<string>
    /** answerCall invocations awaiting `accept`: the runtime's record, not a store field. */
    var acceptsPending: nat

    ghost function State(): UiState
      reads this
    {
      UiState(client, currentSession, status, remoteIdentity, remoteStream, extension, acceptsPending)
    }

    ghost predicate Valid()
      reads this
    {
      Coherent(State())
    }

    constructor ()
      ensures State() == Initial && Valid()
    {
      client := false;
      currentSession := None;
      status := Idle;
      remoteIdentity := None;
      remoteStream := None;
      extension := None;
      acceptsPending := 0;
    }

    /** `connected` is whether `sipClient.connect(...)` resolved. */
    method InitializeSip(ext: string, connected: bool)
      requires Valid()
      modifies this
      ensures Valid() && State() == Step(old(State()), SipInit(ext, connected))
    {
      if client {
        return;
      }
      status := Registering;
      if connected {
        client := true;
        extension := Some(ext);
      } else {
        status := Error;
      }
    }

    method OnRegistered()
      requires Valid()
      modifies this
      ensures Valid() && State() == Step(old(State()), UaRegistered)
    {
      status := Registered;
    }

    method OnUnregistered()
      requires Valid()
      modifies this
      ensures Valid() && State() == Step(old(State()), UaUnregistered)
    {
      status := Idle;
    }

    /** `id` names the Inviter the client creates. */
    method MakeCall(target: string, id: nat, outcome: DialOutcome)
      requires Valid()
      modifies this
      ensures Valid() && State() == Step(old(State()), Dial(target, id, outcome))
    {
      StepKeepsCoherent(State(), Dial(target, id, outcome));
      if !client {
        return;
      }
      var targetUri := target;
      if !Contains(target, "@") {
        targetUri := "sip:" + target + "@" + SipDomain;
      } else if !StartsWith(target, "sip:") {
        targetUri := "sip:" + target;
      }
      assert targetUri == NormaliseTarget(target);
      if outcome == CallThrows {
        status := Registered;
        return;
      }
      currentSession := Some(Session(id, Inviter, targetUri));
      status := Calling;
      remoteIdentity := Some(target);
      if outcome == InviteFails {
        status := Registered;
      }
    }

    method OnInvite(id: nat, from: string)
      requires Valid()
      modifies this
      ensures Valid() && State() == Step(old(State()), InviteArrives(id, from))
    {
      currentSession := Some(Session(id, Invitation, from));
      status := Incoming;
      remoteIdentity := Some(from);
    }

    /** The state listener of session `sess` sees it established. */
    method OnEstablished(sess: Session, stream: nat)
      requires Valid()
      modifies this
      ensures Valid() && State() == Step(old(State()), SessionEstablished(sess, stream))
    {
      status := Connected;
      remoteStream := Some(stream);
    }

    /** The state listener of session `sess` sees it terminated. */
    method OnTerminated(sess: Session)
      requires Valid()
      modifies this
      ensures Valid() && State() == Step(old(State()), SessionTerminated(sess))
    {
      currentSession := None;
      status := Registered;
      remoteIdentity := None;
      if sess.kind == Invitation {
        remoteStream := None;
      }
    }

    /** answerCall up to its `await`: show `answering` and start accepting. */
    method AnswerCall()
      requires Valid()
      modifies this
      ensures Valid() && State() == Step(old(State()), AnswerStarts)
    {
      if currentSession.Some? && currentSession.value.kind == Invitation {
        status := Answering;
        acceptsPending := acceptsPending + 1;
      }
    }

    /** The rest of an earlier answerCall once `accept` settles: `resolved` is false when it threw. */
    method OnAcceptSettled(resolved: bool)
      requires Valid()
      modifies this
      ensures Valid() && State() == Step(old(State()), AcceptSettled(resolved))
    {
      if acceptsPending > 0 {
        acceptsPending := acceptsPending - 1;
        if !resolved {
          status := Incoming;
        }
      }
    }

    method HangupCall()
      requires Valid()
      modifies this
      ensures Valid() && State() == Step(old(State()), Hangup)
    {
      if currentSession.Some? {
        currentSession := None;
        status := Registered;
        remoteIdentity := None;
        remoteStream := None;
      }
    }

    method RejectCall()
      requires Valid()
      modifies this
      ensures Valid() && State() == Step(old(State()), Reject)
    {
      if currentSession.Some? && currentSession.value.kind == Invitation {
        currentSession := None;
        status := Registered;
        remoteIdentity := None;
        remoteStream := None;
      }
    }
  }
}

=== FILE: esl_codec.dfy ===
/**
 * The Event Socket wire format as the native client reads and writes it:
 * frames are blocks of `Header: value` lines ended by a blank line, a frame
 * becomes a header map, and a header map is fanned out to event channels.
 * Everything here is a pure function of its arguments; EslNative runs it.
 */
module EslCodec {
  import opened Wrappers
  import opened Text

  /** The blank line that ends every frame. */
  const Delimiter := "\n\n"

  /** The frames cut from a buffer, in order, and what is left after the last blank line. */
  datatype Split = Split(frames: seq<string>, rest: string)

  /** Frames written back out, each followed by the blank line that ended it. */
  function Assemble(frames: seq<string>): string {
    if frames == [] then [] else frames[0] + Delimiter + Assemble(frames[1..])
  }

  /** A frame as the splitter can cut it: no blank line inside and no '\n' at its end. */
  predicate FrameBody(f: string) {
    !Contains(f, Delimiter) && (f == [] || f[|f| - 1] != '\n')
  }

  /** Whatever precedes the first blank line of `b` is a frame body. */
  lemma PrefixBeforeFirstDelimiter(b: string, i: int)
    requires IsAt(b, Delimiter, i)
    requires forall j :: 0 <= j < i ==> !IsAt(b, Delimiter, j)
    ensures FrameBody(b[..i])
  {
    var f := b[..i];
    forall j | 0 <= j ensures !IsAt(f, Delimiter, j) {
      if j + 2 <= |f| {
        assert f[j..j + 2] == b[j..j + 2];
        assert !IsAt(b, Delimiter, j);
      }
    }
    if i > 0 {
      assert !IsAt(b, Delimiter, i - 1);
      assert b[i - 1..i + 1] == [b[i - 1], b[i]];
      assert b[i] == b[i..i + 2][0];
      assert f[|f| - 1] == b[i - 1];
    }
  }

  /** The loop of processData on a buffer: cut at the first blank line, again and again. */
  function SplitFrames(b: string): Split
    decreases |b|
  {
    var i := IndexOf(b, Delimiter);
    if i < 0 then Split([], b) else
      var r := SplitFrames(b[i + 2..]);
      Split([b[..i]] + r.frames, r.rest)
  }

  /**
   * What the loop leaves and what it cuts: the pieces, each followed by a blank
   * line, and then the remainder give back the buffer; no piece holds a blank
   * line or ends in '\n', and the remainder holds no blank line.
   */
  lemma {:induction false} SplitFramesSound(b: string)
    ensures var r := SplitFrames(b);
            && Assemble(r.frames) + r.rest == b
            && !Contains(r.rest, Delimiter)
            && forall k :: 0 <= k < |r.frames| ==> FrameBody(r.frames[k])
    decreases |b|
  {
    SplitFramesAssemble(b);
    SplitFramesRest(b);
    SplitFramesBodies(b);
  }

  lemma {:induction false} SplitFramesAssemble(b: string)
    ensures Assemble(SplitFrames(b).frames) + SplitFrames(b).rest == b
    decreases |b|
  {
    var i := IndexOf(b, Delimiter);
    if i >= 0 {
      var tail := b[i + 2..];
      var r := SplitFrames(tail);
      assert SplitFrames(b) == Split([b[..i]] + r.frames, r.rest);
      SplitFramesAssemble(tail);
      AssembleCons(b[..i], r.frames);
      CutAt(b, i);
      assert (b[..i] + Delimiter + Assemble(r.frames)) + r.rest == b[..i] + Delimiter + (Assemble(r.frames) + r.rest);
    }
  }

  lemma {:induction false} SplitFramesRest(b: string)
    ensures !Contains(SplitFrames(b).rest, Delimiter)
    decreases |b|
  {
    var i := IndexOf(b, Delimiter);
    if i >= 0 {
      SplitFramesRest(b[i + 2..]);
    }
  }

  lemma {:induction false} SplitFramesBodies(b: string)
    ensures forall k :: 0 <= k < |SplitFrames(b).frames| ==> FrameBody(SplitFrames(b).frames[k])
    decreases |b|
  {
    var i := IndexOf(b, Delimiter);
    if i >= 0 {
      PrefixBeforeFirstDelimiter(b, i);
      SplitFramesBodies(b[i + 2..]);
      ConsFrameBodies(b[..i], SplitFrames(b[i + 2..]).frames);
    }
  }

  /** `b` is cut in two around the blank line at `i`. */
  lemma CutAt(b: string, i: int)
    requires IsAt(b, Delimiter, i)
    ensures b == b[..i] + Delimiter + b[i + 2..]
  {
    assert b[i..i + 2] == Delimiter;
  }

  lemma AssembleCons(f: string, fs: seq<string>)
    ensures Assemble([f] + fs) == f + Delimiter + Assemble(fs)
  {
    assert ([f] + fs)[0] == f && ([f] + fs)[1..] == fs;
  }

  lemma ConsFrameBodies(f: string, fs: seq<string>)
    requires FrameBody(f)
    requires forall k :: 0 <= k < |fs| ==> FrameBody(fs[k])
    ensures forall k :: 0 <= k < |[f] + fs| ==> FrameBody(([f] + fs)[k])
  {
    forall k | 0 <= k < |[f] + fs| ensures FrameBody(([f] + fs)[k]) {
      if k > 0 {
        assert ([f] + fs)[k] == fs[k - 1];
      }
    }
  }

  lemma {:induction false} AssembleAppend(fs: seq<string>, gs: seq<string>)
    ensures Assemble(fs + gs) == Assemble(fs) + Assemble(gs)
    decreases |fs|
  {
    if fs == [] {
      assert fs + gs == gs;
    } else {
      assert (fs + gs)[0] == fs[0];
      assert (fs + gs)[1..] == fs[1..] + gs;
      AssembleAppend(fs[1..], gs);
    }
  }

  /** In `f + "\n\n" + t` with `f` a frame body, the first blank line is the one right after `f`. */
  lemma FirstDelimiterAfterBody(f: string, t: string)
    requires FrameBody(f)
    ensures IndexOf(f + Delimiter + t, Delimiter) == |f|
  {
    var b := f + Delimiter + t;
    assert b[|f|..|f| + 2] == Delimiter;
    assert IsAt(b, Delimiter, |f|);
    forall j | 0 <= j < |f| ensures !IsAt(b, Delimiter, j) {
      if j + 2 <= |f| {
        assert b[j..j + 2] == f[j..j + 2];
        assert !IsAt(f, Delimiter, j);
      } else {
        assert b[j..j + 2][0] == b[j] == f[|f| - 1];
      }
    }
  }

  /**
   * Splitting is the inverse of assembling: frame bodies followed by blank
   * lines and a remainder without one are cut back into exactly those frames.
   */
  lemma {:induction false} SplitAssembled(fs: seq<string>, rest: string)
    requires forall k :: 0 <= k < |fs| ==> FrameBody(fs[k])
    requires !Contains(rest, Delimiter)
    ensures SplitFrames(Assemble(fs) + rest) == Split(fs, rest)
    decreases |fs|
  {
    if fs == [] {
      assert Assemble(fs) + rest == rest;
      assert IndexOf(rest, Delimiter) < 0;
    } else {
      var t := Assemble(fs[1..]) + rest;
      assert [fs[0]] + fs[1..] == fs;
      AssembleCons(fs[0], fs[1..]);
      var b := fs[0] + Delimiter + t;
      assert Assemble(fs) + rest == b;
      FirstDelimiterAfterBody(fs[0], t);
      SlicesAroundDelimiter(fs[0], t);
      SplitAssembled(fs[1..], rest);
    }
  }

  lemma SlicesAroundDelimiter(f: string, t: string)
    ensures (f + Delimiter + t)[..|f|] == f
    ensures (f + Delimiter + t)[|f| + 2..] == t
  {
  }

  /** One step of the splitting loop: the frame before the first blank line, then the frames of what follows it. */
  lemma SplitFramesStep(b: string)
    requires IndexOf(b, Delimiter) >= 0
    ensures var i := IndexOf(b, Delimiter); var r := SplitFrames(b[i + 2..]);
            SplitFrames(b) == Split([b[..i]] + r.frames, r.rest)
  {
  }

  /**
   * Appending to a buffer never changes the frames already complete in it:
   * the frames of `b + c` are those of `b` followed by those of its remainder plus `c`.
   */
  lemma SplitFramesAppend(b: string, c: string)
    ensures var s := SplitFrames(b); var t := SplitFrames(s.rest + c);
            SplitFrames(b + c) == Split(s.frames + t.frames, t.rest)
  {
    var s := SplitFrames(b);
    var t := SplitFrames(s.rest + c);
    SplitFramesSound(b);
    SplitFramesSound(s.rest + c);
    AssembleAppend(s.frames, t.frames);
    Regroup(Assemble(s.frames), s.rest, c, Assemble(t.frames), t.rest);
    AppendFrameBodies(s.frames, t.frames);
    SplitAssembled(s.frames + t.frames, t.rest);
  }

  lemma Regroup(a1: string, r1: string, c: string, a2: string, r2: string)
    requires r1 + c == a2 + r2
    ensures (a1 + r1) + c == (a1 + a2) + r2
  {
    assert (a1 + r1) + c == a1 + (r1 + c);
    assert a1 + (a2 + r2) == (a1 + a2) + r2;
  }

  lemma AppendFrameBodies(fs: seq<string>, gs: seq<string>)
    requires forall k :: 0 <= k < |fs| ==> FrameBody(fs[k])
    requires forall k :: 0 <= k < |gs| ==> FrameBody(gs[k])
    ensures forall k :: 0 <= k < |fs + gs| ==> FrameBody((fs + gs)[k])
  {
    forall k | 0 <= k < |fs + gs| ensures FrameBody((fs + gs)[k]) {
      if k >= |fs| {
        assert (fs + gs)[k] == gs[k - |fs|];
      }
    }
  }

  /** The chunks of a stream, glued back together. */
  function Concat(chunks: seq<string>): string {
    if chunks == [] then [] else chunks[0] + Concat(chunks[1..])
  }

  /**
   * A connection fed the chunks one socket read at a time: each read is appended
   * to the remainder of the previous one and split again.
   */
  function Feed(buffer: string, chunks: seq<string>): Split
    decreases |chunks|
  {
    if chunks == [] then Split([], buffer)
    else
      var s := SplitFrames(buffer + chunks[0]);
      var t := Feed(s.rest, chunks[1..]);
      Split(s.frames + t.frames, t.rest)
  }

  /**
   * Chunking invariance: feeding a stream in any chunking yields the frames,
   * and the remainder, of delivering it whole.
   */
  lemma {:induction false} ChunkingInvariance(buffer: string, chunks: seq<string>)
    requires !Contains(buffer, Delimiter)
    ensures Feed(buffer, chunks) == SplitFrames(buffer + Concat(chunks))
    decreases |chunks|
  {
    if chunks == [] {
      assert buffer + Concat(chunks) == buffer;
      assert IndexOf(buffer, Delimiter) < 0;
    } else {
      var c0, cs := chunks[0], chunks[1..];
      var b := buffer + c0;
      ConcatCons(buffer, chunks);
      var s := SplitFrames(b);
      SplitFramesSound(b);
      ChunkingInvariance(s.rest, cs);
      SplitFramesAppend(b, Concat(cs));
    }
  }

  lemma ConcatCons(buffer: string, chunks: seq<string>)
    requires chunks != []
    ensures buffer + Concat(chunks) == (buffer + chunks[0]) + Concat(chunks[1..])
  {
    assert Concat(chunks) == chunks[0] + Concat(chunks[1..]);
  }

  /** The frames handed on to processEvent: those that are not all white space, in order. */
  function NonBlank(frames: seq<string>): seq<string> {
    if frames == [] then []
    else (if Trim(frames[0]) != [] then [frames[0]] else []) + NonBlank(frames[1..])
  }

  /** A frame is handed on exactly when it was cut and its trim is not empty. */
  lemma {:induction false} NonBlankExact(frames: seq<string>)
    ensures forall f :: f in NonBlank(frames) <==> f in frames && Trim(f) != []
    decreases |frames|
  {
    if frames != [] {
      NonBlankExact(frames[1..]);
      assert frames == [frames[0]] + frames[1..];
    }
  }

  lemma {:induction false} NonBlankAppend(fs: seq<string>, gs: seq<string>)
    ensures NonBlank(fs + gs) == NonBlank(fs) + NonBlank(gs)
    decreases |fs|
  {
    if fs == [] {
      assert fs + gs == gs;
    } else {
      var h: seq<string> := if Trim(fs[0]) != [] then [fs[0]] else [];
      assert (fs + gs)[0] == fs[0];
      assert (fs + gs)[1..] == fs[1..] + gs;
      NonBlankAppend(fs[1..], gs);
      assert NonBlank(fs + gs) == h + NonBlank(fs[1..] + gs);
      assert h + (NonBlank(fs[1..]) + NonBlank(gs)) == (h + NonBlank(fs[1..])) + NonBlank(gs);
    }
  }

  /** One more frame cut off: it is kept exactly when it is not all white space. */
  lemma NonBlankSnoc(fs: seq<string>, f: string)
    ensures NonBlank(fs + [f]) == NonBlank(fs) + (if Trim(f) != [] then [f] else [])
  {
    NonBlankAppend(fs, [f]);
    NonBlankSingle(f);
  }

  lemma NonBlankSingle(f: string)
    ensures NonBlank([f]) == if Trim(f) != [] then [f] else []
  {
    var h: seq<string> := if Trim(f) != [] then [f] else [];
    assert [f][1..] == [];
    assert NonBlank([f]) == h + NonBlank([]);
    assert h + [] == h;
  }

  // ---------------------------------------------------------------- headers

  /** One line of a frame: split at the first colon, both sides trimmed; no colon, or a colon first, gives nothing. */
  function ParseLine(line: string): Option<(string, string)> {
    var colon := IndexOf(line, ":");
    if colon > 0 then Some((Trim(line[..colon]), Trim(line[colon + 1..]))) else None
  }

  /** What each line of a frame parses to. */
  function ParsedLines(lines: seq<string>): seq<Option<(string, string)>> {
    seq(|lines|, i requires 0 <= i < |lines| => ParseLine(lines[i]))
  }

  /** The header map built from parsed lines in order; a later entry with the same key overwrites. */
  function Fold(es: seq<Option<(string, string)>>): map<string, string>
    decreases |es|
  {
    if es == [] then map[]
    else
      var m := Fold(es[..|es| - 1]);
      match es[|es| - 1]
      case Some((k, v)) => m[k := v]
      case None => m
  }

  /** The header map of a frame's lines. */
  function HeadersOf(lines: seq<string>): map<string, string> {
    Fold(ParsedLines(lines))
  }

  /** processEvent's decoding of a frame. */
  function ParseHeaders(data: string): map<string, string> {
    HeadersOf(SplitLines(data))
  }

  /** One more line: the map grows by that line's header, if it has one. */
  lemma HeadersOfSnoc(lines: seq<string>, line: string)
    ensures HeadersOf(lines + [line]) ==
      match ParseLine(line)
      case Some((k, v)) => HeadersOf(lines)[k := v]
      case None => HeadersOf(lines)
  {
    var es := ParsedLines(lines + [line]);
    assert es[..|es| - 1] == ParsedLines(lines);
    assert es[|es| - 1] == ParseLine(line);
  }

  /** Entry `e` sets key `k`. */
  predicate SetsKey(e: Option<(string, string)>, k: string) {
    e.Some? && e.value.0 == k
  }

  lemma {:induction false} FoldHasKey(es: seq<Option<(string, string)>>, k: string)
    ensures k in Fold(es) <==> exists i :: 0 <= i < |es| && SetsKey(es[i], k)
    decreases |es|
  {
    if es != [] {
      var init := es[..|es| - 1];
      FoldHasKey(init, k);
      assert forall i :: 0 <= i < |init| ==> init[i] == es[i];
      if SetsKey(es[|es| - 1], k) {
        assert k in Fold(es);
      }
    }
  }

  lemma {:induction false} FoldLastWins(es: seq<Option<(string, string)>>, k: string, i: int)
    requires 0 <= i < |es| && SetsKey(es[i], k)
    requires forall j :: i < j < |es| ==> !SetsKey(es[j], k)
    ensures k in Fold(es) && Fold(es)[k] == es[i].value.1
    decreases |es|
  {
    var init := es[..|es| - 1];
    if i < |es| - 1 {
      assert init[i] == es[i];
      assert forall j :: i < j < |init| ==> init[j] == es[j];
      FoldLastWins(init, k, i);
    }
  }

  lemma {:induction false} FoldSkipsNone(before: seq<Option<(string, string)>>, after: seq<Option<(string, string)>>)
    ensures Fold(before + [None] + after) == Fold(before + after)
    decreases |after|
  {
    var all := before + [None] + after;
    if after == [] {
      assert all[..|all| - 1] == before;
      assert before + after == before;
    } else {
      var shorter := after[..|after| - 1];
      FoldSkipsNone(before, shorter);
      assert all[..|all| - 1] == before + [None] + shorter;
      assert (before + after)[..|before + after| - 1] == before + shorter;
      assert all[|all| - 1] == (before + after)[|before + after| - 1];
    }
  }

  /** Line `line` carries a header with key `k`. */
  predicate HasKey(line: string, k: string) {
    ParseLine(line).Some? && ParseLine(line).value.0 == k
  }

  /** A key is present exactly when some line carries it. */
  lemma HeaderPresentIffSomeLine(lines: seq<string>, k: string)
    ensures k in HeadersOf(lines) <==> exists i :: 0 <= i < |lines| && HasKey(lines[i], k)
  {
    var es := ParsedLines(lines);
    FoldHasKey(es, k);
    assert forall i :: 0 <= i < |lines| ==> (SetsKey(es[i], k) <==> HasKey(lines[i], k));
  }

  /** A later duplicate key overwrites: the value of a key is that of the last line carrying it. */
  lemma HeaderLastLineWins(lines: seq<string>, k: string, i: int)
    requires 0 <= i < |lines| && HasKey(lines[i], k)
    requires forall j :: i < j < |lines| ==> !HasKey(lines[j], k)
    ensures k in HeadersOf(lines) && HeadersOf(lines)[k] == ParseLine(lines[i]).value.1
  {
    var es := ParsedLines(lines);
    assert forall j :: i < j < |lines| ==> !SetsKey(es[j], k);
    FoldLastWins(es, k, i);
  }

  /** A line without a usable colon can be dropped anywhere without changing the headers. */
  lemma LineWithoutKeyIgnored(before: seq<string>, line: string, after: seq<string>)
    requires ParseLine(line).None?
    ensures HeadersOf(before + [line] + after) == HeadersOf(before + after)
  {
    var a, b := ParsedLines(before), ParsedLines(after);
    ParsedLinesAppend(before + [line], after);
    ParsedLinesAppend(before, [line]);
    ParsedLinesAppend(before, after);
    assert ParsedLines([line]) == [None];
    FoldSkipsNone(a, b);
  }

  lemma ParsedLinesAppend(xs: seq<string>, ys: seq<string>)
    ensures ParsedLines(xs + ys) == ParsedLines(xs) + ParsedLines(ys)
  {
  }

  /** A header the way the switch writes one: `Key: value`. */
  function FormatHeader(h: (string, string)): string {
    h.0 + ": " + h.1
  }

  /** A key with no colon, no line break and no surrounding space, and a value with no line break and no surrounding space. */
  predicate WellFormedHeader(h: (string, string)) {
    h.0 != [] && ':' !in h.0 && '\n' !in h.0 && '\n' !in h.1 && Trimmed(h.0) && Trimmed(h.1)
  }

  /** Values may hold colons: only the first colon of a line splits it. */
  lemma ParseFormattedHeader(h: (string, string))
    requires WellFormedHeader(h)
    ensures ParseLine(FormatHeader(h)) == Some(h)
  {
    var line := FormatHeader(h);
    assert line == h.0 + [':'] + (" " + h.1);
    FirstOccurrenceOfChar(h.0, ':', " " + h.1);
    assert IndexOf(line, ":") == |h.0|;
    assert line[..|h.0|] == h.0;
    assert line[|h.0| + 1..] == " " + h.1;
    TrimOfTrimmed(h.0);
    TrimLeadingSpace(h.1);
  }

  /** The first occurrence of `c` in `a + [c] + t` when `a` has none. */
  lemma FirstOccurrenceOfChar(a: string, c: char, t: string)
    requires c !in a
    ensures IndexOf(a + [c] + t, [c]) == |a|
  {
    var s := a + [c] + t;
    assert s[|a|..|a| + 1] == [c];
    assert IsAt(s, [c], |a|);
    forall j | 0 <= j < |a| ensures !IsAt(s, [c], j) {
      assert s[j..j + 1] == [a[j]];
    }
  }

  /** The header map a list of headers denotes: later entries overwrite earlier ones with the same key. */
  function MapOf(hs: seq<(string, string)>): map<string, string>
    decreases |hs|
  {
    if hs == [] then map[] else MapOf(hs[..|hs| - 1])[hs[|hs| - 1].0 := hs[|hs| - 1].1]
  }

  /** The header lines of a frame, one per header, in order. */
  function FormatHeaders(hs: seq<(string, string)>): seq<string> {
    seq(|hs|, i requires 0 <= i < |hs| => FormatHeader(hs[i]))
  }

  lemma FormatHeadersSnoc(hs: seq<(string, string)>)
    requires hs != []
    ensures FormatHeaders(hs) == FormatHeaders(hs[..|hs| - 1]) + [FormatHeader(hs[|hs| - 1])]
  {
  }

  /** The header lines of a list of headers decode to the map the list denotes. */
  lemma {:induction false} HeadersOfFormatted(hs: seq<(string, string)>)
    requires forall i :: 0 <= i < |hs| ==> WellFormedHeader(hs[i])
    ensures HeadersOf(FormatHeaders(hs)) == MapOf(hs)
    decreases |hs|
  {
    if hs != [] {
      var init := hs[..|hs| - 1];
      var last := hs[|hs| - 1];
      assert forall i :: 0 <= i < |init| ==> init[i] == hs[i];
      HeadersOfFormatted(init);
      FormatHeadersSnoc(hs);
      ParseFormattedHeader(last);
      HeadersOfSnoc(FormatHeaders(init), FormatHeader(last));
    }
  }

  /** Decoding a frame the switch encodes gives back its headers, later duplicates winning. */
  lemma DecodeEncodedFrame(hs: seq<(string, string)>)
    requires |hs| >= 1
    requires forall i :: 0 <= i < |hs| ==> WellFormedHeader(hs[i])
    ensures ParseHeaders(JoinLines(FormatHeaders(hs))) == MapOf(hs)
  {
    var lines := FormatHeaders(hs);
    forall k | 0 <= k < |lines| ensures '\n' !in lines[k] {
      assert lines[k] == hs[k].0 + ": " + hs[k].1;
    }
    SplitJoinLines(lines);
    HeadersOfFormatted(hs);
  }

  // ---------------------------------------------------------------- dispatch

  /** One `emit`: a channel name and the event's header map. */
  datatype Emission = Emission(channel: string, headers: map<string, string>)

  /** The channel every named event goes to first. */
  const AnyEvent := "esl::event"

  /** The channel for a given event name. */
  function ChannelOf(name: string): string {
    "esl::event::" + name
  }

  /** The `Event-Name` header, when present and non-empty (JavaScript truthiness). */
  predicate Named(h: map<string, string>) {
    "Event-Name" in h && h["Event-Name"] != ""
  }

  /** A CUSTOM event with a non-empty `Event-Subclass`. */
  predicate CustomWithSubclass(h: map<string, string>) {
    Named(h) && h["Event-Name"] == "CUSTOM" && "Event-Subclass" in h && h["Event-Subclass"] != ""
  }

  /**
   * processEvent's fan-out: nothing without an event name; otherwise the
   * generic channel, then the event's own, then for CUSTOM events with a
   * subclass the subclass channel.
   */
  function Dispatch(h: map<string, string>): (r: seq<Emission>)
    ensures r == [] <==> !Named(h)
    ensures r != [] ==> |r| >= 2 && r[0].channel == AnyEvent && r[1].channel == ChannelOf(h["Event-Name"])
    ensures |r| <= 3
    ensures |r| == 3 <==> CustomWithSubclass(h)
    ensures CustomWithSubclass(h) ==> r[2].channel == ChannelOf("CUSTOM::" + h["Event-Subclass"])
    ensures forall e :: e in r ==> e.headers == h
  {
    if !Named(h) then []
    else
      [Emission(AnyEvent, h), Emission(ChannelOf(h["Event-Name"]), h)]
      + (if CustomWithSubclass(h) then [Emission(ChannelOf("CUSTOM::" + h["Event-Subclass"]), h)] else [])
  }

  lemma ChannelOfInjective(a: string, b: string)
    requires ChannelOf(a) == ChannelOf(b)
    ensures a == b
  {
    assert a == ChannelOf(a)[12..];
    assert b == ChannelOf(b)[12..];
  }

  /**
   * Which frames reach a listener on `esl::event::<n>`: those named `n`, and
   * CUSTOM frames whose subclass `s` makes `n` equal to `CUSTOM::s`.
   */
  lemma DeliveredTo(h: map<string, string>, n: string)
    ensures (exists e :: e in Dispatch(h) && e.channel == ChannelOf(n))
        <==> (Named(h) && h["Event-Name"] == n)
             || (CustomWithSubclass(h) && n == "CUSTOM::" + h["Event-Subclass"])
  {
    var r := Dispatch(h);
    if exists e :: e in r && e.channel == ChannelOf(n) {
      var e :| e in r && e.channel == ChannelOf(n);
      assert e.channel != AnyEvent by {
        assert |ChannelOf(n)| >= 12;
      }
      if e.channel == ChannelOf(h["Event-Name"]) {
        ChannelOfInjective(n, h["Event-Name"]);
      } else {
        assert e.channel == ChannelOf("CUSTOM::" + h["Event-Subclass"]);
        ChannelOfInjective(n, "CUSTOM::" + h["Event-Subclass"]);
      }
    }
    if Named(h) && h["Event-Name"] == n {
      assert r[1] in r;
    }
    if CustomWithSubclass(h) && n == "CUSTOM::" + h["Event-Subclass"] {
      assert r[2] in r;
    }
  }

  /** The hang-up handler is reached by exactly the frames named CHANNEL_HANGUP_COMPLETE. */
  lemma HangupListenerReached(h: map<string, string>)
    ensures (exists e :: e in Dispatch(h) && e.channel == ChannelOf("CHANNEL_HANGUP_COMPLETE"))
        <==> Named(h) && h["Event-Name"] == "CHANNEL_HANGUP_COMPLETE"
  {
    DeliveredTo(h, "CHANNEL_HANGUP_COMPLETE");
    if CustomWithSubclass(h) {
      var n := "CUSTOM::" + h["Event-Subclass"];
      assert n[1] == 'U';
      assert "CHANNEL_HANGUP_COMPLETE"[1] == 'H';
    }
  }

  /** The emissions for a run of decoded frames, in order. */
  function DispatchMaps(hs: seq<map<string, string>>): seq<Emission>
    decreases |hs|
  {
    if hs == [] then [] else Dispatch(hs[0]) + DispatchMaps(hs[1..])
  }

  lemma {:induction false} DispatchMapsAppend(hs: seq<map<string, string>>, gs: seq<map<string, string>>)
    ensures DispatchMaps(hs + gs) == DispatchMaps(hs) + DispatchMaps(gs)
    decreases |hs|
  {
    if hs == [] {
      assert hs + gs == gs;
    } else {
      assert (hs + gs)[0] == hs[0];
      assert (hs + gs)[1..] == hs[1..] + gs;
      DispatchMapsAppend(hs[1..], gs);
    }
  }

  /** `xs.map(f)`: `f` applied to each element, in order. */
  function MapSeq<A, B>(f: A -> B, xs: seq<A>): seq<B> {
    seq(|xs|, i requires 0 <= i < |xs| => f(xs[i]))
  }

  lemma MapSeqAppend<A, B>(f: A -> B, xs: seq<A>, ys: seq<A>)
    ensures MapSeq(f, xs + ys) == MapSeq(f, xs) + MapSeq(f, ys)
  {
    var l, r := MapSeq(f, xs + ys), MapSeq(f, xs) + MapSeq(f, ys);
    forall i | 0 <= i < |l| ensures l[i] == r[i] {
      if i < |xs| {
        assert (xs + ys)[i] == xs[i];
      } else {
        assert (xs + ys)[i] == ys[i - |xs|];
      }
    }
  }

  /** What each frame decodes to, in order. */
  function DecodedFrames(frames: seq<string>): seq<map<string, string>> {
    MapSeq(ParseHeaders, frames)
  }

  /** All emissions of a run of frames, in order. */
  function DispatchAll(frames: seq<string>): seq<Emission> {
    DispatchMaps(DecodedFrames(frames))
  }

  lemma DecodedFramesAppend(fs: seq<string>, gs: seq<string>)
    ensures DecodedFrames(fs + gs) == DecodedFrames(fs) + DecodedFrames(gs)
  {
    MapSeqAppend(ParseHeaders, fs, gs);
  }

  lemma DispatchAllAppend(fs: seq<string>, gs: seq<string>)
    ensures DispatchAll(fs + gs) == DispatchAll(fs) + DispatchAll(gs)
  {
    DecodedFramesAppend(fs, gs);
    DispatchMapsAppend(DecodedFrames(fs), DecodedFrames(gs));
  }

  /** One more frame: its fan-out follows the earlier ones. */
  lemma DispatchAllSnoc(fs: seq<string>, f: string)
    ensures DispatchAll(fs + [f]) == DispatchAll(fs) + Dispatch(ParseHeaders(f))
  {
    var h := ParseHeaders(f);
    DecodedFramesAppend(fs, [f]);
    assert DecodedFrames([f]) == [h];
    DispatchMapsAppend(DecodedFrames(fs), [h]);
    assert [h][1..] == [];
    assert DispatchMaps([h]) == Dispatch(h) + DispatchMaps([]);
    assert Dispatch(h) + [] == Dispatch(h);
  }

  // ---------------------------------------------------------------- commands

  /** The commands the client writes to the socket. */
  datatype Command = Auth(password: string) | Subscribe(format: string, events: string) | Api(command: string)

  /** `auth <password>\n`, `event <format> <events>\n`, `api <command>\n`. */
  function Encode(c: Command): string {
    match c
    case Auth(p) => "auth " + p + "\n"
    case Subscribe(f, e) => "event " + f + " " + e + "\n"
    case Api(cmd) => "api " + cmd + "\n"
  }

  /** How the switch reads a command line: the verb up to the first space, then its arguments. */
  function Decode(line: string): Option<Command> {
    if line == [] || line[|line| - 1] != '\n' then None
    else DecodeBody(line[..|line| - 1])
  }

  /** A command line without its terminating '\n'. */
  function DecodeBody(body: string): Option<Command> {
    var sp := IndexOf(body, " ");
    if sp < 0 then None else DecodeVerb(body[..sp], body[sp + 1..])
  }

  function DecodeVerb(verb: string, arg: string): Option<Command> {
    if verb == "auth" then Some(Auth(arg))
    else if verb == "api" then Some(Api(arg))
    else if verb == "event" then
      var sp := IndexOf(arg, " ");
      if sp < 0 then None else Some(Subscribe(arg[..sp], arg[sp + 1..]))
    else None
  }

  /** Arguments that keep a command on one line and its fields apart. */
  predicate WellFormedCommand(c: Command) {
    match c
    case Auth(p) => '\n' !in p
    case Subscribe(f, e) => '\n' !in f && '\n' !in e && ' ' !in f
    case Api(cmd) => '\n' !in cmd
  }

  /** Every command is one line that reads back as itself. */
  lemma DecodeEncode(c: Command)
    requires WellFormedCommand(c)
    ensures Decode(Encode(c)) == Some(c)
  {
    match c
    case Auth(p) =>
      DecodeLine(Encode(c), "auth", p);
    case Api(cmd) =>
      DecodeLine(Encode(c), "api", cmd);
    case Subscribe(f, e) =>
      DecodeSubscribe(Encode(c), f, e);
  }

  lemma DecodeSubscribe(line: string, f: string, e: string)
    requires ' ' !in f
    requires line == "event " + f + " " + e + "\n"
    ensures Decode(line) == Some(Subscribe(f, e))
  {
    var arg := f + [' '] + e;
    DecodeLine(line, "event", arg);
    FirstOccurrenceOfChar(f, ' ', e);
    assert arg[..|f|] == f && arg[|f| + 1..] == e;
  }

  /** `verb arg\n` with a space-free verb decodes as that verb applied to `arg`. */
  lemma DecodeLine(line: string, verb: string, arg: string)
    requires ' ' !in verb
    requires line == verb + [' '] + arg + ['\n']
    ensures Decode(line) == DecodeVerb(verb, arg)
  {
    var body := verb + [' '] + arg;
    assert line[..|line| - 1] == body;
    FirstOccurrenceOfChar(verb, ' ', arg);
    assert body[..|verb|] == verb && body[|verb| + 1..] == arg;
  }
}

=== FILE: esl_native.dfy ===
/**
 * The hand-written Event Socket client: a connection object whose text buffer
 * grows with every socket read, whose `processData` first looks for the reply
 * to `auth` and then cuts complete frames off the front of the buffer, and
 * whose `processEvent` turns a frame into a header map and emits it.
 */
module EslNative {
  import opened Text
  import opened EslCodec

  /** The markers processData looks for while not yet authenticated. */
  const ContentType := "Content-Type:"
  const CommandReply := "command/reply"
  const AccessDenied := "Access Denied"

  /** What the connect callback of initESL subscribes to. */
  const PlainFormat := "plain"
  const AllEvents := "all"

  /** The credentials initESL connects with. */
  const DefaultPassword := "ClueCon"

  /**
   * The auth check at the head of processData: while not authenticated and once
   * the buffer holds a `Content-Type:` header, authentication succeeds on a
   * `command/reply` without `Access Denied`, and everything up to and including
   * the last blank line is cut off the buffer (when that blank line is not at 0).
   */
  function AuthStep(authenticated: bool, b: string): (bool, string) {
    if !authenticated && Contains(b, ContentType) then
      var ok := Contains(b, CommandReply) && !Contains(b, AccessDenied);
      var idx := LastIndexOf(b, Delimiter);
      (ok, if idx > 0 then b[idx + 2..] else b)
    else (authenticated, b)
  }

  /** The part of a connection processData reads and writes: the flag, the buffer and the frames processed so far. */
  datatype Snapshot = Snapshot(authenticated: bool, buffer: string, processed: seq<string>)

  /** processData: the auth check, then every complete frame cut off, the non-blank ones processed. */
  function AfterProcessData(s: Snapshot): Snapshot {
    var (a, b) := AuthStep(s.authenticated, s.buffer);
    var sp := SplitFrames(b);
    Snapshot(a, sp.rest, s.processed + NonBlank(sp.frames))
  }

  /** The `data` handler: append the chunk, then processData. */
  function OnDataNext(s: Snapshot, chunk: string): Snapshot {
    AfterProcessData(s.(buffer := s.buffer + chunk))
  }

  /** A run of socket reads, one `data` event each. */
  function OnDataAll(s: Snapshot, chunks: seq<string>): Snapshot
    decreases |chunks|
  {
    if chunks == [] then s else OnDataAll(OnDataNext(s, chunks[0]), chunks[1..])
  }

  /** Authentication succeeds exactly on a `command/reply` without `Access Denied` after a `Content-Type:`, and is never lost here. */
  lemma AuthOutcome(authenticated: bool, b: string)
    ensures AuthStep(authenticated, b).0 <==>
      authenticated || (Contains(b, ContentType) && Contains(b, CommandReply) && !Contains(b, AccessDenied))
    ensures authenticated ==> AuthStep(authenticated, b) == (true, b)
  {
  }

  /** An `Access Denied` reply leaves the connection unauthenticated. */
  lemma AccessDeniedRejected(b: string)
    requires Contains(b, AccessDenied)
    ensures !AuthStep(false, b).0
  {
  }

  /**
   * The auth cut: when the last blank line of a buffer holding the reply sits
   * past index 0, all of the buffer through it is dropped, so no frame of that
   * read reaches processEvent, and what stays holds no blank line.
   */
  lemma AuthCutDropsFrames(b: string)
    requires Contains(b, ContentType)
    requires LastIndexOf(b, Delimiter) > 0
    ensures AuthStep(false, b).1 == b[LastIndexOf(b, Delimiter) + 2..]
    ensures !Contains(AuthStep(false, b).1, Delimiter)
    ensures SplitFrames(AuthStep(false, b).1).frames == []
  {
    var idx := LastIndexOf(b, Delimiter);
    var r := b[idx + 2..];
    forall j | 0 <= j ensures !IsAt(r, Delimiter, j) {
      if j + 2 <= |r| {
        assert r[j..j + 2] == b[idx + 2 + j..idx + 2 + j + 2];
        assert !IsAt(b, Delimiter, idx + 2 + j);
      }
    }
    assert IndexOf(r, Delimiter) < 0;
  }

  /** Once authenticated, a read just appends and splits. */
  lemma OnDataAuthenticated(s: Snapshot, chunk: string)
    requires s.authenticated
    ensures var sp := SplitFrames(s.buffer + chunk);
            OnDataNext(s, chunk) == Snapshot(true, sp.rest, s.processed + NonBlank(sp.frames))
  {
  }

  lemma ProcessedAppend(p: seq<string>, fs: seq<string>, gs: seq<string>)
    ensures p + NonBlank(fs) + NonBlank(gs) == p + NonBlank(fs + gs)
  {
    NonBlankAppend(fs, gs);
  }

  /** The same stream fed in several reads, with the remainder carried along, as Feed describes it. */
  lemma {:induction false} OnDataAllIsFeed(s: Snapshot, chunks: seq<string>)
    requires s.authenticated
    ensures var f := Feed(s.buffer, chunks);
            OnDataAll(s, chunks) == Snapshot(true, f.rest, s.processed + NonBlank(f.frames))
    decreases |chunks|
  {
    if chunks == [] {
      assert NonBlank([]) == [];
      assert s.processed + [] == s.processed;
    } else {
      var sp := SplitFrames(s.buffer + chunks[0]);
      var s1 := Snapshot(true, sp.rest, s.processed + NonBlank(sp.frames));
      var t := Feed(sp.rest, chunks[1..]);
      assert OnDataAll(s, chunks) == OnDataAll(s1, chunks[1..]) by {
        OnDataAuthenticated(s, chunks[0]);
      }
      assert OnDataAll(s1, chunks[1..]) == Snapshot(true, t.rest, s1.processed + NonBlank(t.frames)) by {
        OnDataAllIsFeed(s1, chunks[1..]);
      }
      assert Feed(s.buffer, chunks) == Split(sp.frames + t.frames, t.rest);
      ProcessedAppend(s.processed, sp.frames, t.frames);
    }
  }

  /**
   * Once authenticated, delivering a stream in any chunking processes the same
   * frames, and leaves the same buffer, as delivering it in one read.
   */
  lemma ChunkingAfterAuth(s: Snapshot, chunks: seq<string>)
    requires s.authenticated && !Contains(s.buffer, Delimiter)
    ensures OnDataAll(s, chunks) == OnDataNext(s, Concat(chunks))
  {
    OnDataAllIsFeed(s, chunks);
    ChunkingInvariance(s.buffer, chunks);
  }

  /**
   * The part of a connection the timers of `connect` read and write: whether
   * the 100 ms auth poll is still scheduled, the two flags, and whether the
   * socket has been destroyed.
   */
  datatype Handshake = Handshake(polling: bool, authenticated: bool, connected: bool, destroyed: bool)

  /** What can happen to it once `connect` has run. */
  datatype HandshakeEvent =
    | PollTick       // the auth poll fires
    | AuthExpiry     // the five-second timeout fires
    | ReplyAccepted  // processData accepts the auth reply
    | SocketClosed   // the socket's `close` event

  function HandshakeStep(s: Handshake, e: HandshakeEvent): Handshake {
    match e
    case PollTick => if s.polling && s.authenticated then s.(polling := false, connected := true) else s
    case AuthExpiry => if !s.authenticated then s.(polling := false, destroyed := true) else s
    case ReplyAccepted => s.(authenticated := true)
    case SocketClosed => s.(connected := false, authenticated := false)
  }

  function HandshakeRun(s: Handshake, es: seq<HandshakeEvent>): Handshake
    decreases |es|
  {
    if es == [] then s else HandshakeRun(HandshakeStep(s, es[0]), es[1..])
  }

  /** How many times the poll fires, that is, runs the connect callback, along a run. */
  function Firings(s: Handshake, es: seq<HandshakeEvent>): nat
    decreases |es|
  {
    if es == [] then 0
    else (if es[0] == PollTick && s.polling && s.authenticated then 1 else 0) + Firings(HandshakeStep(s, es[0]), es[1..])
  }

  /** The timeout fires with no auth reply accepted: the poll is cancelled and the socket destroyed; after an accepted reply it does nothing. */
  lemma ExpiryEffect(s: Handshake)
    ensures !s.authenticated ==> var t := HandshakeStep(s, AuthExpiry); !t.polling && t.destroyed
    ensures s.authenticated ==> HandshakeStep(s, AuthExpiry) == s
  {
  }

  /** Nothing but `connect` restarts the poll. */
  lemma {:induction false} NoPollRestart(s: Handshake, es: seq<HandshakeEvent>)
    requires !s.polling
    ensures !HandshakeRun(s, es).polling && Firings(s, es) == 0
    decreases |es|
  {
    if es != [] {
      NoPollRestart(HandshakeStep(s, es[0]), es[1..]);
    }
  }

  /**
   * Once the timeout has cancelled the poll, a reply that arrives late never
   * marks the connection up and never runs the connect callback.
   */
  lemma {:induction false} LateReplyNeverConnects(s: Handshake, es: seq<HandshakeEvent>)
    requires !s.polling && !s.connected
    ensures !HandshakeRun(s, es).connected && Firings(s, es) == 0
    decreases |es|
  {
    if es != [] {
      var t := HandshakeStep(s, es[0]);
      assert !t.polling && !t.connected;
      LateReplyNeverConnects(t, es[1..]);
    }
    NoPollRestart(s, es);
  }

  /** The connect callback, and with it the subscription, runs at most once per `connect`. */
  lemma {:induction false} FiresAtMostOnce(s: Handshake, es: seq<HandshakeEvent>)
    ensures Firings(s, es) <= (if s.polling then 1 else 0)
    decreases |es|
  {
    if es != [] {
      var t := HandshakeStep(s, es[0]);
      FiresAtMostOnce(t, es[1..]);
      if es[0] == PollTick && s.polling && s.authenticated {
        NoPollRestart(t, es[1..]);
      }
    }
  }

  /** The ESLConnection object with the state its handlers update. */
  class EslConnection {
    const password: string
    var connected: bool
    var authenticated: bool
    var buffer: string
    /** The auth poll of `connect` is scheduled. */
    var polling: bool
    /** `socket.destroy()` has been called. */
    var destroyed: bool
    /** Everything written to the socket, in order. */
    var sent: seq<string>
    /** Everything emitted to listeners, in order. */
    var emitted: seq<Emission>
    /** The frames handed to processEvent, in order. */
    ghost var processed: seq<string>

    /** Every emission so far is the fan-out of a processed frame, in order. */
    ghost predicate Valid()
      reads this
    {
      emitted == DispatchAll(processed)
    }

    ghost function Snap(): Snapshot
      reads this
    {
      Snapshot(authenticated, buffer, processed)
    }

    ghost function Shake(): Handshake
      reads this
    {
      Handshake(polling, authenticated, connected, destroyed)
    }

    constructor (password: string)
      ensures this.password == password
      ensures !connected && !authenticated && buffer == [] && sent == [] && emitted == [] && processed == []
      ensures !polling && !destroyed
      ensures Valid()
    {
      this.password := password;
      connected := false;
      authenticated := false;
      buffer := [];
      polling := false;
      destroyed := false;
      sent := [];
      emitted := [];
      processed := [];
    }

    /** connect: open the socket and schedule the auth poll and the five-second timeout. */
    method Connect()
      modifies this
      ensures polling && !destroyed
      ensures authenticated == old(authenticated) && connected == old(connected)
      ensures buffer == old(buffer) && sent == old(sent) && emitted == old(emitted) && processed == old(processed)
    {
      polling := true;
      destroyed := false;
    }

    /** The TCP connect callback: send `auth` at once. */
    method OnTcpConnect()
      modifies this
      ensures sent == old(sent) + [Encode(Auth(password))]
      ensures Shake() == old(Shake()) && Snap() == old(Snap()) && emitted == old(emitted)
    {
      sent := sent + [Encode(Auth(password))];
    }

    /** The `data` handler. */
    method OnData(chunk: string)
      requires Valid()
      modifies this
      ensures Valid()
      ensures Snap() == OnDataNext(old(Snap()), chunk)
      ensures !Contains(buffer, Delimiter)
      ensures connected == old(connected) && polling == old(polling) && destroyed == old(destroyed) && sent == old(sent)
    {
      buffer := buffer + chunk;
      ProcessData();
    }

    /** The `close` handler: both flags drop. */
    method OnClose()
      modifies this
      ensures Shake() == HandshakeStep(old(Shake()), SocketClosed)
      ensures buffer == old(buffer) && sent == old(sent) && emitted == old(emitted) && processed == old(processed)
    {
      connected := false;
      authenticated := false;
    }

    /**
     * One tick of the auth poll in connect: once authenticated the poll cancels
     * itself, the connection is marked connected and the callback initESL
     * passes subscribes to all events.
     */
    method AuthPoll() returns (fired: bool)
      modifies this
      ensures fired == (old(polling) && old(authenticated))
      ensures Shake() == HandshakeStep(old(Shake()), PollTick)
      ensures sent == old(sent) + (if fired then [Encode(Subscribe(PlainFormat, AllEvents))] else [])
      ensures buffer == old(buffer) && emitted == old(emitted) && processed == old(processed)
    {
      fired := polling && authenticated;
      if fired {
        polling := false;
        connected := true;
        Events(PlainFormat, AllEvents);
      }
    }

    /**
     * The five-second timeout of connect: with no auth reply accepted it
     * cancels the poll and destroys the socket (the `error` it then emits
     * reaches only a listener that schedules an empty timer).
     */
    method AuthTimedOut() returns (failed: bool)
      modifies this
      ensures failed == !old(authenticated)
      ensures Shake() == HandshakeStep(old(Shake()), AuthExpiry)
      ensures buffer == old(buffer) && sent == old(sent) && emitted == old(emitted) && processed == old(processed)
    {
      failed := !authenticated;
      if failed {
        polling := false;
        destroyed := true;
      }
    }

    /** `events`: subscribe. */
    method Events(format: string, events: string)
      modifies this
      ensures sent == old(sent) + [Encode(Subscribe(format, events))]
      ensures Shake() == old(Shake()) && Snap() == old(Snap()) && emitted == old(emitted)
    {
      sent := sent + [Encode(Subscribe(format, events))];
    }

    /** `api`: send a command (the reply is not read). */
    method Api(command: string)
      modifies this
      ensures sent == old(sent) + [Encode(EslCodec.Api(command))]
      ensures Shake() == old(Shake()) && Snap() == old(Snap()) && emitted == old(emitted)
    {
      sent := sent + [Encode(EslCodec.Api(command))];
    }

    /** processData: the auth check, then the frame loop. */
    method ProcessData()
      requires Valid()
      modifies this
      ensures Valid()
      ensures Snap() == AfterProcessData(old(Snap()))
      ensures !Contains(buffer, Delimiter)
      ensures connected == old(connected) && polling == old(polling) && destroyed == old(destroyed) && sent == old(sent)
    {
      CheckAuth();
      ProcessFrames();
    }

    /** The auth check at the head of processData. */
    method CheckAuth()
      modifies this
      ensures (authenticated, buffer) == AuthStep(old(authenticated), old(buffer))
      ensures processed == old(processed) && emitted == old(emitted)
      ensures connected == old(connected) && polling == old(polling) && destroyed == old(destroyed) && sent == old(sent)
    {
      if !authenticated && Contains(buffer, ContentType) {
        if Contains(buffer, CommandReply) && !Contains(buffer, AccessDenied) {
          authenticated := true;
        }
        var idx := LastIndexOf(buffer, Delimiter);
        if idx > 0 {
          buffer := buffer[idx + 2..];
        }
      }
    }

    /** The frame loop of processData: cut at the first blank line until there is none, processing the non-blank frames. */
    method ProcessFrames()
      requires Valid()
      modifies this
      ensures Valid()
      ensures var sp := SplitFrames(old(buffer));
              buffer == sp.rest && processed == old(processed) + NonBlank(sp.frames)
      ensures !Contains(buffer, Delimiter)
      ensures Shake() == old(Shake()) && sent == old(sent)
    {
      ghost var done: seq<string> := [];
      while true
        invariant Valid()
        invariant SplitFrames(old(buffer)) == Split(done + SplitFrames(buffer).frames, SplitFrames(buffer).rest)
        invariant processed == old(processed) + NonBlank(done)
        invariant Shake() == old(Shake()) && sent == old(sent)
        decreases |buffer|
      {
        var eventEnd := IndexOf(buffer, Delimiter);
        if eventEnd == -1 {
          SplitFramesSound(buffer);
          assert done + [] == done;
          break;
        }
        ghost var eventData := buffer[..eventEnd];
        SplitFramesStep(buffer);
        ghost var tail := SplitFrames(buffer[eventEnd + 2..]);
        TakeFrame(eventEnd);
        ProcessedSnoc(old(processed), done, eventData);
        SnocThenFrames(done, eventData, tail.frames);
        done := done + [eventData];
      }
    }

    /** One pass of the frame loop: cut the frame ending at `eventEnd` and process it unless it is blank. */
    method TakeFrame(eventEnd: int)
      requires Valid()
      requires 0 <= eventEnd && eventEnd + 2 <= |buffer|
      modifies this
      ensures Valid()
      ensures buffer == old(buffer)[eventEnd + 2..]
      ensures var f := old(buffer)[..eventEnd];
              processed == old(processed) + (if Trim(f) != [] then [f] else [])
      ensures Shake() == old(Shake()) && sent == old(sent)
    {
      var eventData := buffer[..eventEnd];
      buffer := buffer[eventEnd + 2..];
      if Trim(eventData) != [] {
        ProcessEvent(eventData);
      }
    }

    /** processEvent: build the header map, then emit it. */
    method ProcessEvent(data: string)
      requires Valid()
      modifies this
      ensures Valid()
      ensures processed == old(processed) + [data]
      ensures emitted == old(emitted) + Dispatch(ParseHeaders(data))
      ensures authenticated == old(authenticated) && buffer == old(buffer)
      ensures connected == old(connected) && polling == old(polling) && destroyed == old(destroyed) && sent == old(sent)
    {
      var headers := CollectHeaders(SplitLines(data));
      var out := Fanout(headers);
      DispatchAllSnoc(processed, data);
      emitted := emitted + out;
      processed := processed + [data];
    }
  }

  /** The log of processed frames after one more frame is cut off. */
  lemma ProcessedSnoc(p: seq<string>, done: seq<string>, f: string)
    ensures p + NonBlank(done + [f]) == p + NonBlank(done) + (if Trim(f) != [] then [f] else [])
  {
    var h: seq<string> := if Trim(f) != [] then [f] else [];
    NonBlankSnoc(done, f);
    Associate(p, NonBlank(done), h);
  }

  lemma Associate(a: seq<string>, b: seq<string>, c: seq<string>)
    ensures a + (b + c) == a + b + c
  {
  }

  lemma SnocThenFrames(done: seq<string>, f: string, fs: seq<string>)
    ensures done + ([f] + fs) == (done + [f]) + fs
  {
  }

  /** The header loop of processEvent: each line with a colon past index 0 sets its trimmed key to its trimmed value. */
  method CollectHeaders(lines: seq<string>) returns (headers: map<string, string>)
    ensures headers == HeadersOf(lines)
  {
    headers := map[];
    for i := 0 to |lines|
      invariant headers == HeadersOf(lines[..i])
    {
      var line := lines[i];
      var colon := IndexOf(line, ":");
      HeadersOfPrefix(lines, i);
      if colon > 0 {
        var key := Trim(line[..colon]);
        var value := Trim(line[colon + 1..]);
        headers := headers[key := value];
      }
    }
    assert lines[..|lines|] == lines;
  }

  /** The map of the first `i + 1` lines: that of the first `i`, plus the header of line `i` if it has a colon past index 0. */
  lemma HeadersOfPrefix(lines: seq<string>, i: int)
    requires 0 <= i < |lines|
    ensures var line, colon := lines[i], IndexOf(lines[i], ":");
            HeadersOf(lines[..i + 1]) ==
              if colon > 0 then HeadersOf(lines[..i])[Trim(line[..colon]) := Trim(line[colon + 1..])]
              else HeadersOf(lines[..i])
  {
    assert lines[..i + 1] == lines[..i] + [lines[i]];
    HeadersOfSnoc(lines[..i], lines[i]);
  }

  /** The emits of processEvent for a header map. */
  method Fanout(headers: map<string, string>) returns (out: seq<Emission>)
    ensures out == Dispatch(headers)
  {
    out := [];
    if "Event-Name" in headers && headers["Event-Name"] != "" {
      var eventName := headers["Event-Name"];
      out := out + [Emission(AnyEvent, headers)];
      out := out + [Emission(ChannelOf(eventName), headers)];
      if eventName == "CUSTOM" {
        if "Event-Subclass" in headers && headers["Event-Subclass"] != "" {
          out := out + [Emission(ChannelOf("CUSTOM::" + headers["Event-Subclass"]), headers)];
        }
      }
    }
  }

  /** initESL: a connection to the local switch with its default password, connecting at once. */
  method InitNativeEsl() returns (conn: EslConnection)
    ensures fresh(conn) && conn.Valid()
    ensures conn.password == DefaultPassword && !conn.connected && !conn.authenticated && conn.sent == []
    ensures conn.polling && !conn.destroyed
  {
    conn := new EslConnection(DefaultPassword);
    conn.Connect();
  }
}

=== FILE: esl_supervisor.dfy ===
/**
 * The module-level connection state of the server's Event Socket client: the
 * current connection, whether it is up, and the pending connect timeout, as
 * `disconnect`, `initESL` and the connection's ready callback update them.
 * Connections and timers are opaque handles.
 */
module EslSupervisor {
  import opened Wrappers
  import opened EslCodec

  /** The commands the ready callback sends, in order. */
  const ReadyCommands: seq<Command> := [
    Subscribe("plain", "all"),
    Api("sofia status profile internal reg"),
    Api("xmlstatus"),
    Api("show registrations as xml")
  ]

  /**
   * The three module variables, plus the handles the model hands out, the
   * connections it has closed, the connect timeouts that have already fired
   * and the number of `initESL` retries scheduled and not yet run (those
   * timers are kept nowhere, so nothing can clear them).
   */
  datatype Globals = Globals(
    conn: Option<nat>,
    isConnected: bool,
    connectionTimeout: Option<nat>,
    nextHandle: nat,
    closed: seq<nat>,
    fired: set<nat>,
    pendingRetries: nat)

  /** disconnect: drop the timeout, close the connection if it is up, forget it. */
  function AfterDisconnect(g: Globals): (r: Globals)
    ensures r.conn.None? && r.connectionTimeout.None?
    ensures r.isConnected == (g.isConnected && g.conn.None?)
    ensures r.closed == g.closed + (if g.conn.Some? && g.isConnected then [g.conn.value] else [])
    ensures r.nextHandle == g.nextHandle && r.fired == g.fired && r.pendingRetries == g.pendingRetries
  {
    var live := g.conn.Some? && g.isConnected;
    g.(conn := None, isConnected := g.isConnected && !live, connectionTimeout := None,
       closed := g.closed + (if live then [g.conn.value] else []))
  }

  /**
   * initESL: disconnect, arm a new timeout, open a new connection. The two new
   * handles are distinct and fresh, and scheduled retries survive.
   */
  function AfterInitEsl(g: Globals): (r: Globals)
    ensures var d := AfterDisconnect(g);
            r.closed == d.closed && r.isConnected == d.isConnected
            && r.fired == g.fired && r.pendingRetries == g.pendingRetries
    ensures r.conn.Some? && r.connectionTimeout.Some? && r.conn.value != r.connectionTimeout.value
    ensures g.nextHandle <= r.conn.value < r.nextHandle && g.nextHandle <= r.connectionTimeout.value < r.nextHandle
  {
    var d := AfterDisconnect(g);
    d.(connectionTimeout := Some(d.nextHandle), conn := Some(d.nextHandle + 1), nextHandle := d.nextHandle + 2)
  }

  /** The ready callback: clear the timeout and mark the connection up. */
  function AfterReady(g: Globals): (r: Globals)
    ensures r.isConnected && r.connectionTimeout.None?
    ensures r.conn == g.conn && r.closed == g.closed && r.pendingRetries == g.pendingRetries
  {
    g.(connectionTimeout := None, isConnected := true)
  }

  /**
   * The connect timeout `t` fires. Only the armed one can (disconnect and the
   * ready callback clear it), and only once; with the connection still down it
   * schedules a retry of initESL ten seconds later. The variable keeps the
   * spent handle.
   */
  function AfterConnectTimeout(g: Globals, t: nat): (r: Globals)
    ensures r.conn == g.conn && r.isConnected == g.isConnected && r.closed == g.closed
    ensures r.connectionTimeout == g.connectionTimeout
  {
    if g.connectionTimeout == Some(t) && t !in g.fired then
      g.(fired := g.fired + {t}, pendingRetries := g.pendingRetries + if g.isConnected then 0 else 1)
    else g
  }

  /** The connection's `error` listener schedules a retry of initESL five seconds later. */
  function AfterError(g: Globals): Globals {
    g.(pendingRetries := g.pendingRetries + 1)
  }

  /** A scheduled retry runs initESL. */
  function AfterRetry(g: Globals): Globals {
    if g.pendingRetries > 0 then AfterInitEsl(g.(pendingRetries := g.pendingRetries - 1)) else g
  }

  /** A connection is only ever marked up while there is one, and every handle in use was handed out. */
  predicate Consistent(g: Globals) {
    && (g.isConnected ==> g.conn.Some?)
    && (g.conn.Some? ==> g.conn.value < g.nextHandle)
    && (g.connectionTimeout.Some? ==> g.connectionTimeout.value < g.nextHandle)
    && (forall i :: 0 <= i < |g.closed| ==> g.closed[i] < g.nextHandle)
  }

  /** disconnect a second time changes nothing. */
  lemma DisconnectIdempotent(g: Globals)
    ensures AfterDisconnect(AfterDisconnect(g)) == AfterDisconnect(g)
  {
  }

  /** From a consistent state, disconnect always leaves the client down. */
  lemma DisconnectLeavesDown(g: Globals)
    requires Consistent(g)
    ensures !AfterDisconnect(g).isConnected && Consistent(AfterDisconnect(g))
  {
  }

  /** Every transition keeps the state consistent; initESL leaves the client down with a connection no one has closed. */
  lemma TransitionsKeepConsistent(g: Globals, t: nat)
    requires Consistent(g)
    ensures Consistent(AfterInitEsl(g)) && Consistent(AfterReady(AfterInitEsl(g)))
    ensures Consistent(AfterConnectTimeout(g, t)) && Consistent(AfterError(g)) && Consistent(AfterRetry(g))
    ensures !AfterInitEsl(g).isConnected
    ensures AfterInitEsl(g).conn.value !in AfterInitEsl(g).closed
  {
    var r := AfterInitEsl(g);
    forall i | 0 <= i < |r.closed| ensures r.closed[i] < r.nextHandle && r.closed[i] != r.conn.value {
      if i < |g.closed| {
        assert r.closed[i] == g.closed[i];
      }
    }
  }

  /** A timeout fires once: a second firing of the same handle changes nothing. */
  lemma TimeoutFiresOnce(g: Globals, t: nat)
    ensures AfterConnectTimeout(AfterConnectTimeout(g, t), t) == AfterConnectTimeout(g, t)
  {
  }

  /** The armed timeout schedules a retry exactly when the connection is not up by then. */
  lemma TimeoutSchedulesRetry(g: Globals)
    requires g.connectionTimeout.Some? && g.connectionTimeout.value !in g.fired
    ensures AfterConnectTimeout(g, g.connectionTimeout.value).pendingRetries ==
              if g.isConnected then g.pendingRetries else g.pendingRetries + 1
  {
  }

  /** After the ready callback no connect timeout schedules anything. */
  lemma ReadyCancelsTimeout(g: Globals, t: nat)
    ensures AfterConnectTimeout(AfterReady(g), t) == AfterReady(g)
  {
  }

  /** disconnect and initESL leave scheduled retries in place. */
  lemma ReconnectKeepsRetries(g: Globals)
    ensures AfterDisconnect(g).pendingRetries == g.pendingRetries
    ensures AfterInitEsl(g).pendingRetries == g.pendingRetries
  {
  }

  /**
   * A retry scheduled before a reconnect still runs after it: when the new
   * connection is up, the stale retry closes it and starts yet another one.
   */
  lemma StaleRetryClosesLiveConnection(g: Globals)
    requires Consistent(g) && g.pendingRetries > 0
    ensures var up := AfterReady(AfterInitEsl(g));
            var r := AfterRetry(up);
            up.isConnected && up.conn.value in r.closed && !r.isConnected && r.conn != up.conn
  {
    var up := AfterReady(AfterInitEsl(g));
    var r := AfterRetry(up);
    TransitionsKeepConsistent(g, 0);
    var d := AfterDisconnect(up.(pendingRetries := up.pendingRetries - 1));
    assert d.closed[|d.closed| - 1] == up.conn.value;
    assert r.closed == d.closed;
  }

  /** The module variables as one object. */
  class Supervisor {
    var conn: Option<nat>
    var isConnected: bool
    var connectionTimeout: Option<nat>
    var nextHandle: nat
    ghost var closed: seq<nat>
    /** Connect timeouts that have already fired: the timer runtime's record, not a module variable. */
    var fired: set<nat>
    /** Retries of initESL scheduled and not yet run. */
    var pendingRetries: nat
    /** Commands written on the current connections. */
    var sent: seq<Command>

    ghost function State(): Globals
      reads this
    {
      Globals(conn, isConnected, connectionTimeout, nextHandle, closed, fired, pendingRetries)
    }

    constructor ()
      ensures State() == Globals(None, false, None, 0, [], {}, 0) && sent == []
    {
      conn := None;
      isConnected := false;
      connectionTimeout := None;
      nextHandle := 0;
      closed := [];
      fired := {};
      pendingRetries := 0;
      sent := [];
    }

    method Disconnect()
      modifies this
      ensures State() == AfterDisconnect(old(State()))
      ensures sent == old(sent)
    {
      if connectionTimeout.Some? {
        connectionTimeout := None;
      }
      if conn.Some? && isConnected {
        closed := closed + [conn.value];
        isConnected := false;
      }
      conn := None;
    }

    method InitEsl()
      modifies this
      ensures State() == AfterInitEsl(old(State()))
      ensures sent == old(sent)
    {
      Disconnect();
      connectionTimeout := Some(nextHandle);
      conn := Some(nextHandle + 1);
      nextHandle := nextHandle + 2;
    }

    /** The ready callback, which also subscribes and asks for the registrations. */
    method OnReady()
      modifies this
      ensures State() == AfterReady(old(State()))
      ensures sent == old(sent) + ReadyCommands
    {
      if connectionTimeout.Some? {
        connectionTimeout := None;
      }
      isConnected := true;
      sent := sent + [Subscribe("plain", "all")];
      sent := sent + [Api("sofia status profile internal reg")];
      sent := sent + [Api("xmlstatus")];
      sent := sent + [Api("show registrations as xml")];
    }

    /** The connect timeout `t` fires: a retry is scheduled exactly when the connection is not up. */
    method OnConnectTimeout(t: nat) returns (retry: bool)
      modifies this
      ensures retry == (old(connectionTimeout) == Some(t) && t !in old(fired) && !old(isConnected))
      ensures State() == AfterConnectTimeout(old(State()), t)
      ensures sent == old(sent)
    {
      retry := false;
      if connectionTimeout == Some(t) && t !in fired {
        fired := fired + {t};
        if !isConnected {
          retry := true;
          pendingRetries := pendingRetries + 1;
        }
      }
    }

    /** The connection reports an error: a retry is scheduled. */
    method OnError()
      modifies this
      ensures State() == AfterError(old(State()))
      ensures sent == old(sent)
    {
      pendingRetries := pendingRetries + 1;
    }

    /** A scheduled retry runs initESL. */
    method OnRetry()
      modifies this
      ensures State() == AfterRetry(old(State()))
      ensures sent == old(sent)
    {
      if pendingRetries > 0 {
        pendingRetries := pendingRetries - 1;
        InitEsl();
      }
    }
  }
}

=== FILE: presence.dfy ===
/**
 * Presence in the users table, as the server keeps it from the switch: a
 * snapshot of the registrations read once the connection is up, and the
 * `sofia::register` / `unregister` / `expire` events after that.
 */
module Presence {
  import opened Wrappers
  import opened Text
  import opened Records

  const OpenTag := "<user>"
  const CloseTag := "</user>"

  /** The characters `.` does not match in a JavaScript regular expression. */
  predicate IsLineTerminator(c: char) {
    c == '\n' || c == '\r' || c == '\U{2028}' || c == '\U{2029}'
  }

  /**
   * The lazy `(.*?)</user>` on `t`: the length of the shortest run of non-line-
   * terminator characters that is followed by `</user>`, if there is one.
   */
  function CloseAt(t: string): (r: Option<nat>)
    ensures r.Some? ==> r.value + |CloseTag| <= |t| && t[r.value..r.value + |CloseTag|] == CloseTag
    ensures r.Some? ==> forall j :: 0 <= j < r.value ==> !IsLineTerminator(t[j])
    decreases |t|
  {
    if |t| < |CloseTag| then None
    else if t[..|CloseTag|] == CloseTag then Some(0)
    else if IsLineTerminator(t[0]) then None
    else
      match CloseAt(t[1..])
      case Some(k) => Some(k + 1)
      case None => None
  }

  /** `</user>` starts at index `k` of `t`. */
  predicate TagAt(t: string, k: int) {
    0 <= k && k + |CloseTag| <= |t| && t[k..k + |CloseTag|] == CloseTag
  }

  lemma TagAtShift(t: string, k: int)
    requires t != [] && 1 <= k
    ensures TagAt(t, k) <==> TagAt(t[1..], k - 1)
  {
    if k + |CloseTag| <= |t| {
      var a, b := t[k..k + |CloseTag|], t[1..][k - 1..k - 1 + |CloseTag|];
      forall i | 0 <= i < |CloseTag| ensures a[i] == b[i] {
        assert a[i] == t[k + i] && b[i] == t[1..][k - 1 + i];
      }
      assert a == b;
    }
  }

  /**
   * The lazy group stops at the FIRST `</user>`: none starts before the
   * result, and there is no result exactly when a line terminator comes
   * before every `</user>`.
   */
  lemma {:induction false} CloseAtFirst(t: string)
    ensures CloseAt(t).Some? ==> forall j :: 0 <= j < CloseAt(t).value ==> !TagAt(t, j)
    ensures CloseAt(t).None? ==>
              forall k :: TagAt(t, k) ==> exists j :: 0 <= j < k && IsLineTerminator(t[j])
    decreases |t|
  {
    if |t| < |CloseTag| {
    } else if t[..|CloseTag|] == CloseTag {
    } else {
      assert !TagAt(t, 0) by { assert t[0..|CloseTag|] == t[..|CloseTag|]; }
      if IsLineTerminator(t[0]) {
        forall k | TagAt(t, k) ensures exists j :: 0 <= j < k && IsLineTerminator(t[j]) {
          assert 0 < k && IsLineTerminator(t[0]);
        }
      } else {
        CloseAtFirst(t[1..]);
        match CloseAt(t[1..])
        case Some(m) =>
          forall j | 0 <= j < m + 1 ensures !TagAt(t, j) {
            if j > 0 {
              TagAtShift(t, j);
            }
          }
        case None =>
          forall k | TagAt(t, k) ensures exists j :: 0 <= j < k && IsLineTerminator(t[j]) {
            TagAtShift(t, k);
            var j' :| 0 <= j' < k - 1 && IsLineTerminator(t[1..][j']);
            assert IsLineTerminator(t[j' + 1]);
          }
      }
    }
  }

  /**
   * `matchAll(/<user>(.*?)<\/user>/g)` on `s`, group 1 of each match in order:
   * a match is tried at each position in turn, and the search resumes right
   * after the end of a match.
   */
  function Captures(s: string): seq<string>
    decreases |s|
  {
    if s == [] then []
    else if StartsWith(s, OpenTag) && CloseAt(s[|OpenTag|..]).Some? then
      var k := CloseAt(s[|OpenTag|..]).value;
      [s[|OpenTag|..|OpenTag| + k]] + Captures(s[|OpenTag| + k + |CloseTag|..])
    else Captures(s[1..])
  }

  /** A registration as the listing writes it. */
  function Element(ext: string): string {
    OpenTag + ext + CloseTag
  }

  /** An extension the listing can carry: no markup and no line break. */
  predicate PlainExtension(ext: string) {
    forall i :: 0 <= i < |ext| ==> ext[i] != '<' && !IsLineTerminator(ext[i])
  }

  lemma {:induction false} CloseAfterPlain(ext: string, rest: string)
    requires PlainExtension(ext)
    ensures CloseAt(ext + CloseTag + rest) == Some(|ext|)
    decreases |ext|
  {
    var t := ext + CloseTag + rest;
    if ext == [] {
      assert t[..|CloseTag|] == CloseTag;
    } else {
      assert t[0] == ext[0] != CloseTag[0];
      assert t[..|CloseTag|][0] == t[0];
      assert t[1..] == ext[1..] + CloseTag + rest;
      CloseAfterPlain(ext[1..], rest);
    }
  }

  /** A listed registration is captured whole, and the search goes on right after it. */
  lemma CapturesElement(ext: string, rest: string)
    requires PlainExtension(ext)
    ensures Captures(Element(ext) + rest) == [ext] + Captures(rest)
  {
    var s := Element(ext) + rest;
    assert s[..|OpenTag|] == OpenTag;
    assert s[|OpenTag|..] == ext + CloseTag + rest;
    CloseAfterPlain(ext, rest);
    assert s[|OpenTag|..|OpenTag| + |ext|] == ext;
    assert s[|OpenTag| + |ext| + |CloseTag|..] == rest;
  }

  /** Text with no '<' holds no match. */
  lemma {:induction false} NoTagNoCapture(s: string)
    requires forall i :: 0 <= i < |s| ==> s[i] != '<'
    ensures Captures(s) == []
    decreases |s|
  {
    if s != [] {
      assert !StartsWith(s, OpenTag) by {
        if |s| >= |OpenTag| {
          assert s[..|OpenTag|][0] == s[0];
        }
      }
      NoTagNoCapture(s[1..]);
    }
  }

  /** A listing: each registration wrapped in its element, with text free of '<' around them. */
  function Listing(exts: seq<string>, gap: string): string
    decreases |exts|
  {
    if exts == [] then gap else gap + Element(exts[0]) + Listing(exts[1..], gap)
  }

  /** Gap text without '<' is skipped. */
  lemma {:induction false} CapturesAfterGap(gap: string, rest: string)
    requires forall i :: 0 <= i < |gap| ==> gap[i] != '<'
    requires rest == [] || rest[0] == '<'
    ensures Captures(gap + rest) == Captures(rest)
    decreases |gap|
  {
    if gap != [] {
      var s := gap + rest;
      assert !StartsWith(s, OpenTag) by {
        if |s| >= |OpenTag| {
          assert s[..|OpenTag|][0] == gap[0];
        }
      }
      assert s[1..] == gap[1..] + rest;
      assert Captures(s) == Captures(s[1..]);
      CapturesAfterGap(gap[1..], rest);
    } else {
      assert gap + rest == rest;
    }
  }

  /** The snapshot sync reads back exactly the extensions listed, in order. */
  lemma {:induction false} CapturesOfListing(exts: seq<string>, gap: string)
    requires forall k :: 0 <= k < |exts| ==> PlainExtension(exts[k])
    requires forall i :: 0 <= i < |gap| ==> gap[i] != '<'
    ensures Captures(Listing(exts, gap)) == exts
    decreases |exts|
  {
    if exts == [] {
      NoTagNoCapture(gap);
    } else {
      var rest := Listing(exts[1..], gap);
      var e := Element(exts[0]);
      assert Listing(exts, gap) == gap + (e + rest);
      assert (e + rest)[0] == '<';
      CapturesAfterGap(gap, e + rest);
      CapturesElement(exts[0], rest);
      CapturesOfListing(exts[1..], gap);
    }
  }

  /** The `for … of matches` loop: the set of all captured extensions. */
  method CollectOnline(body: string) returns (online: set<string>)
    ensures forall x :: x in online <==> x in Captures(body)
  {
    var matches := Captures(body);
    online := {};
    for i := 0 to |matches|
      invariant online == set j | 0 <= j < i :: matches[j]
    {
      online := online + {matches[i]};
    }
  }

  /** The two writes of the snapshot sync: listed extensions online (only when there are any), every other user offline. */
  function SnapshotWrites(online: set<string>): (ws: seq<UserUpdate>)
    ensures |ws| == if online == {} then 1 else 2
    ensures online != {} ==> ws[0] == UserUpdate(ExtensionIn(online), Online)
    ensures ws[|ws| - 1] == UserUpdate(ExtensionNotIn(online), Offline)
  {
    (if |online| > 0 then [UserUpdate(ExtensionIn(online), Online)] else [])
    + [UserUpdate(ExtensionNotIn(online), Offline)]
  }

  /** After the snapshot sync every user is online exactly when listed and offline otherwise; nothing else about a user changes. */
  lemma SnapshotSyncEffect(users: seq<User>, online: set<string>)
    ensures var r := ApplyUserUpdates(users, SnapshotWrites(online));
            |r| == |users|
            && forall i :: 0 <= i < |users| ==>
                 r[i] == users[i].(status := if users[i].extension in online then Online else Offline)
  {
    var ws := SnapshotWrites(online);
    if |online| > 0 {
      var u1 := UpdateUsers(users, ws[0]);
      assert ApplyUserUpdates(users, ws) == ApplyUserUpdates(u1, ws[1..]);
      assert ApplyUserUpdates(u1, ws[1..]) == ApplyUserUpdates(UpdateUsers(u1, ws[1]), []);
    } else {
      assert ApplyUserUpdates(users, ws) == ApplyUserUpdates(UpdateUsers(users, ws[0]), []);
    }
  }

  /** With nobody registered, everyone is offline. */
  lemma EmptySnapshotAllOffline(users: seq<User>)
    ensures var r := ApplyUserUpdates(users, SnapshotWrites({}));
            |r| == |users| && forall i :: 0 <= i < |users| ==> r[i].status == Offline
  {
    SnapshotSyncEffect(users, {});
  }

  /** The sync applied to a body: each user online exactly when its extension is captured. */
  lemma SyncListedOnline(users: seq<User>, exts: seq<string>, gap: string)
    requires forall k :: 0 <= k < |exts| ==> PlainExtension(exts[k])
    requires forall i :: 0 <= i < |gap| ==> gap[i] != '<'
    ensures var online := set x | x in Captures(Listing(exts, gap));
            var r := ApplyUserUpdates(users, SnapshotWrites(online));
            |r| == |users| && forall i :: 0 <= i < |users| ==> (r[i].status == Online <==> users[i].extension in exts)
  {
    CapturesOfListing(exts, gap);
    var online := set x | x in Captures(Listing(exts, gap));
    SnapshotSyncEffect(users, online);
  }

  // ---------------------------------------------------------------- incremental presence

  const Register := "sofia::register"
  const Unregister := "sofia::unregister"
  const Expire := "sofia::expire"

  /** The subclass of a CUSTOM event, as getHeader reads it. */
  function Subclass(h: map<string, string>): Option<string> {
    if "Event-Subclass" in h then Some(h["Event-Subclass"]) else None
  }

  /** The presence subclasses carry the registering user. */
  predicate PresenceDefined(h: map<string, string>) {
    Subclass(h) in {Some(Register), Some(Unregister), Some(Expire)} ==> "from-user" in h
  }

  /** The write the CUSTOM handler makes: register sets online, unregister and expire set offline, anything else writes nothing. */
  function PresenceWrites(h: map<string, string>): (ws: seq<UserUpdate>)
    requires PresenceDefined(h)
    ensures |ws| <= 1
    ensures |ws| == 1 <==> Subclass(h) in {Some(Register), Some(Unregister), Some(Expire)}
    ensures |ws| == 1 ==> ws[0].where == ExtensionIs(h["from-user"])
    ensures |ws| == 1 ==> (ws[0].status == Online <==> Subclass(h) == Some(Register))
  {
    var sub := Subclass(h);
    if sub == Some(Register) then [UserUpdate(ExtensionIs(h["from-user"]), Online)]
    else if sub == Some(Unregister) || sub == Some(Expire) then [UserUpdate(ExtensionIs(h["from-user"]), Offline)]
    else []
  }

  /** The handler's effect: the user or users with that extension get the new status, everybody else is left alone. */
  lemma PresenceEffect(users: seq<User>, h: map<string, string>)
    requires PresenceDefined(h)
    ensures var r := ApplyUserUpdates(users, PresenceWrites(h));
            |r| == |users|
            && forall i :: 0 <= i < |users| ==>
                 r[i] == (if Subclass(h) == Some(Register) && users[i].extension == h["from-user"] then users[i].(status := Online)
                          else if (Subclass(h) == Some(Unregister) || Subclass(h) == Some(Expire)) && users[i].extension == h["from-user"]
                          then users[i].(status := Offline)
                          else users[i])
  {
    var ws := PresenceWrites(h);
    if ws != [] {
      assert ApplyUserUpdates(users, ws) == ApplyUserUpdates(UpdateUsers(users, ws[0]), []);
    }
  }

  /** Repeating a presence event changes nothing more. */
  lemma PresenceIdempotent(users: seq<User>, h: map<string, string>)
    requires PresenceDefined(h)
    ensures var once := ApplyUserUpdates(users, PresenceWrites(h));
            ApplyUserUpdates(once, PresenceWrites(h)) == once
  {
    var once := ApplyUserUpdates(users, PresenceWrites(h));
    PresenceEffect(users, h);
    PresenceEffect(once, h);
  }

  /** Of two presence events for the same user, the later decides. */
  lemma LaterPresenceWins(users: seq<User>, h1: map<string, string>, h2: map<string, string>)
    requires PresenceDefined(h1) && PresenceDefined(h2)
    requires Subclass(h1) in {Some(Register), Some(Unregister), Some(Expire)}
    requires Subclass(h2) in {Some(Register), Some(Unregister), Some(Expire)}
    requires h1["from-user"] == h2["from-user"]
    ensures ApplyUserUpdates(ApplyUserUpdates(users, PresenceWrites(h1)), PresenceWrites(h2))
         == ApplyUserUpdates(users, PresenceWrites(h2))
  {
    var mid := ApplyUserUpdates(users, PresenceWrites(h1));
    PresenceEffect(users, h1);
    PresenceEffect(mid, h2);
    PresenceEffect(users, h2);
  }

  /** The user with extension 1001 registering is shown online; 1002 stays as it was. */
  lemma RegisterScenario(u1: User, u2: User)
    requires u1.extension == "1001" && u2.extension == "1002"
    ensures var h := map["Event-Name" := "CUSTOM", "Event-Subclass" := Register, "from-user" := "1001"];
            ApplyUserUpdates([u1, u2], PresenceWrites(h)) == [u1.(status := Online), u2]
  {
    var h := map["Event-Name" := "CUSTOM", "Event-Subclass" := Register, "from-user" := "1001"];
    PresenceEffect([u1, u2], h);
    assert u2.extension != "1001";
  }
}

=== FILE: recording_sync.dfy ===
/**
 * The periodic recording sweep: every `.wav` file in the recordings directory
 * that no call links to yet is matched to the newest `initiated` call of the
 * last hour that started within two minutes of the file's modification time,
 * and that call is finalised with the file as its recording.
 */
module RecordingSync {
  import opened Wrappers
  import opened Text
  import opened Records

  const WavSuffix := ".wav"
  /** How far back the candidate snapshot looks, in milliseconds. */
  const SnapshotWindow := 60 * 60 * 1000
  /** How close file time and call start must be, in milliseconds (exclusive). */
  const MatchWindow := 2 * 60 * 1000

  /** A directory entry with what statSync reports about it: modification time in ms and size in bytes. */
  datatype FileEntry = FileEntry(name: string, mtime: int, size: nat)

  /** `readdirSync(dir).filter(f => f.endsWith('.wav'))`, keeping the directory order. */
  function WavFiles(entries: seq<FileEntry>): (r: seq<FileEntry>)
    ensures forall f :: f in r <==> f in entries && EndsWith(f.name, WavSuffix)
    ensures |r| <= |entries|
  {
    if entries == [] then []
    else (if EndsWith(entries[0].name, WavSuffix) then [entries[0]] else []) + WavFiles(entries[1..])
  }

  /** The filter keeps each `.wav` entry as often as the listing holds it, and no other entry. */
  lemma {:induction false} WavFilesCount(entries: seq<FileEntry>)
    ensures forall f :: multiset(WavFiles(entries))[f] == if EndsWith(f.name, WavSuffix) then multiset(entries)[f] else 0
    decreases |entries|
  {
    if entries != [] {
      WavFilesCount(entries[1..]);
      assert entries == [entries[0]] + entries[1..];
    }
  }

  // ---------------------------------------------------------------- candidates

  predicate IsCandidate(c: Call, now: int) {
    c.status == Initiated && c.startTime >= now - SnapshotWindow
  }

  /** The `where` of the candidate query, in table order. */
  function Recent(calls: seq<Call>, now: int): (r: seq<Call>)
    ensures forall c :: c in r <==> c in calls && IsCandidate(c, now)
  {
    if calls == [] then []
    else (if IsCandidate(calls[0], now) then [calls[0]] else []) + Recent(calls[1..], now)
  }

  /** The query keeps each recent `initiated` call as often as the table holds it, and no other call. */
  lemma {:induction false} RecentCount(calls: seq<Call>, now: int)
    ensures forall c :: multiset(Recent(calls, now))[c] == if IsCandidate(c, now) then multiset(calls)[c] else 0
    decreases |calls|
  {
    if calls != [] {
      RecentCount(calls[1..], now);
      assert calls == [calls[0]] + calls[1..];
    }
  }

  /** Newest first. */
  predicate NewestFirst(s: seq<Call>) {
    forall i, j :: 0 <= i < j < |s| ==> s[i].startTime >= s[j].startTime
  }

  /** Place `c` after every call that started no earlier than it, so that ties keep their order. */
  function Insert(c: Call, s: seq<Call>): (r: seq<Call>)
    ensures multiset(r) == multiset(s) + multiset{c}
  {
    if s == [] then [c]
    else if s[0].startTime >= c.startTime then
      assert s == [s[0]] + s[1..];
      [s[0]] + Insert(c, s[1..])
    else [c] + s
  }

  /** Inserting adds `c` and nothing else. */
  lemma InsertMembers(c: Call, s: seq<Call>)
    ensures forall x :: x in Insert(c, s) ==> x == c || x in s
  {
    forall x | x in Insert(c, s) ensures x == c || x in s {
      assert x in multiset(Insert(c, s));
    }
  }

  /** The head of a newest-first list started no earlier than anything after it. */
  lemma HeadIsNewest(s: seq<Call>)
    requires s != [] && NewestFirst(s)
    ensures forall x :: x in s[1..] ==> s[0].startTime >= x.startTime
  {
    forall x | x in s[1..] ensures s[0].startTime >= x.startTime {
      var k :| 0 <= k < |s[1..]| && s[1..][k] == x;
      assert s[k + 1] == x;
    }
  }

  /** A call that started no earlier than every call in `s` may be put in front of it. */
  lemma ConsNewestFirst(x: Call, s: seq<Call>)
    requires NewestFirst(s)
    requires forall y :: y in s ==> x.startTime >= y.startTime
    ensures NewestFirst([x] + s)
  {
    var r := [x] + s;
    forall i, j | 0 <= i < j < |r| ensures r[i].startTime >= r[j].startTime {
      assert r[j] == s[j - 1];
      if i == 0 {
        assert r[j] in s;
      } else {
        assert r[i] == s[i - 1];
      }
    }
  }

  lemma {:induction false} InsertKeepsOrder(c: Call, s: seq<Call>)
    requires NewestFirst(s)
    ensures NewestFirst(Insert(c, s))
    decreases |s|
  {
    if s == [] {
    } else if s[0].startTime >= c.startTime {
      var t := Insert(c, s[1..]);
      assert NewestFirst(s[1..]) by {
        forall i, j | 0 <= i < j < |s[1..]| ensures s[1..][i].startTime >= s[1..][j].startTime {
          assert s[1..][i] == s[i + 1] && s[1..][j] == s[j + 1];
        }
      }
      InsertKeepsOrder(c, s[1..]);
      InsertMembers(c, s[1..]);
      HeadIsNewest(s);
      ConsNewestFirst(s[0], t);
    } else {
      HeadIsNewest(s);
      assert forall y :: y in s ==> y == s[0] || y in s[1..] by {
        assert s == [s[0]] + s[1..];
      }
      ConsNewestFirst(c, s);
    }
  }

  /** `orderBy: { startTime: 'desc' }`, as an insertion sort over the table order. */
  function SortNewestFirst(cs: seq<Call>): (r: seq<Call>)
    ensures multiset(r) == multiset(cs)
  {
    if cs == [] then []
    else
      assert cs == cs[..|cs| - 1] + [cs[|cs| - 1]];
      Insert(cs[|cs| - 1], SortNewestFirst(cs[..|cs| - 1]))
  }

  lemma {:induction false} SortIsNewestFirst(cs: seq<Call>)
    ensures NewestFirst(SortNewestFirst(cs))
    decreases |cs|
  {
    if cs != [] {
      SortIsNewestFirst(cs[..|cs| - 1]);
      InsertKeepsOrder(cs[|cs| - 1], SortNewestFirst(cs[..|cs| - 1]));
    }
  }

  /** The candidate snapshot, taken once before the loop. */
  function Candidates(calls: seq<Call>, now: int): seq<Call> {
    SortNewestFirst(Recent(calls, now))
  }

  /** The snapshot holds exactly the recent `initiated` calls, each as often as in the table, newest first. */
  lemma CandidatesExact(calls: seq<Call>, now: int)
    ensures multiset(Candidates(calls, now)) == multiset(Recent(calls, now))
    ensures forall c :: multiset(Candidates(calls, now))[c] == if IsCandidate(c, now) then multiset(calls)[c] else 0
    ensures forall c :: c in Candidates(calls, now) <==> c in calls && IsCandidate(c, now)
    ensures NewestFirst(Candidates(calls, now))
  {
    var r := Candidates(calls, now);
    RecentCount(calls, now);
    SortIsNewestFirst(Recent(calls, now));
    forall c ensures c in r <==> c in Recent(calls, now) {
      assert c in r <==> c in multiset(r);
      assert c in Recent(calls, now) <==> c in multiset(Recent(calls, now));
    }
  }

  // ---------------------------------------------------------------- matching

  /** `Math.abs(fileTime - startTime) < 2 minutes`; the source checks it twice, on the same instant. */
  predicate InWindow(c: Call, mtime: int) {
    -MatchWindow < mtime - c.startTime < MatchWindow
  }

  /** `initiatedCalls.find(...)`: the first candidate in snapshot order within the window. */
  function FirstInWindow(cands: seq<Call>, mtime: int): (r: Option<Call>)
    ensures r.Some? ==> exists i :: 0 <= i < |cands| && cands[i] == r.value && InWindow(r.value, mtime)
                                    && forall j :: 0 <= j < i ==> !InWindow(cands[j], mtime)
    ensures r.None? <==> forall c :: c in cands ==> !InWindow(c, mtime)
  {
    if cands == [] then None
    else if InWindow(cands[0], mtime) then Some(cands[0])
    else
      var r := FirstInWindow(cands[1..], mtime);
      if r.Some? then
        var i :| 0 <= i < |cands[1..]| && cands[1..][i] == r.value && InWindow(r.value, mtime)
                 && forall j :: 0 <= j < i ==> !InWindow(cands[1..][j], mtime);
        assert cands[i + 1] == r.value;
        r
      else r
  }

  /** With the snapshot newest first, the chosen call is the newest one in the window. */
  lemma ChosenIsNewest(cands: seq<Call>, mtime: int)
    requires NewestFirst(cands)
    ensures var r := FirstInWindow(cands, mtime);
            r.Some? ==> forall c :: c in cands && InWindow(c, mtime) ==> c.startTime <= r.value.startTime
  {
    var r := FirstInWindow(cands, mtime);
    if r.Some? {
      var i :| 0 <= i < |cands| && cands[i] == r.value && InWindow(r.value, mtime)
               && forall j :: 0 <= j < i ==> !InWindow(cands[j], mtime);
      forall c | c in cands && InWindow(c, mtime) ensures c.startTime <= r.value.startTime {
        var k :| 0 <= k < |cands| && cands[k] == c;
        assert i <= k;
        if i < k {
          assert cands[i].startTime >= cands[k].startTime;
        }
      }
    }
  }

  /** `Math.max(1, Math.round(size / 10000))`, rounding halves up. */
  function EstimateDuration(size: nat): (d: int)
    ensures d >= 1
    ensures size >= 5000 ==> d * 10000 - 5000 <= size < d * 10000 + 5000
    ensures size < 15000 ==> d == 1
  {
    var rounded := (size + 5000) / 10000;
    if rounded > 1 then rounded else 1
  }

  lemma EstimateExamples()
    ensures EstimateDuration(100000) == 10
    ensures EstimateDuration(0) == 1
    ensures EstimateDuration(25000) == 3
    ensures EstimateDuration(24999) == 2
  {
  }

  // ---------------------------------------------------------------- the sweep

  function UrlOf(f: FileEntry): string {
    "/recordings/" + f.name
  }

  /** One `call.update`: the candidate it targets and the file whose recording it links. */
  datatype Write = Write(call: Call, file: FileEntry)

  /** The data a write sets: the locator, `endTime = mtime` and the estimated duration. */
  function WriteData(f: FileEntry): Completion {
    Completion(UrlOf(f), f.mtime, EstimateDuration(f.size))
  }

  function ApplyWrite(store: seq<Call>, w: Write): seq<Call> {
    UpdateCalls(store, ById(w.call.id), WriteData(w.file))
  }

  /** What the loop does for one file against the current table: skip it if linked, else write to the first candidate in the window, if any. */
  function StepWrite(store: seq<Call>, cands: seq<Call>, f: FileEntry): (r: Option<Write>)
    ensures r.Some? ==> !Linked(store, UrlOf(f))
  {
    if Linked(store, UrlOf(f)) then None
    else match FirstInWindow(cands, f.mtime)
      case None => None
      case Some(c) => Some(Write(c, f))
  }

  /** The table after a run of files and the writes made, in order. */
  datatype Sweep = Sweep(store: seq<Call>, writes: seq<Write>)

  function SweepFiles(calls: seq<Call>, cands: seq<Call>, files: seq<FileEntry>): Sweep
    decreases |files|
  {
    if files == [] then Sweep(calls, [])
    else
      var p := SweepFiles(calls, cands, files[..|files| - 1]);
      match StepWrite(p.store, cands, files[|files| - 1])
      case None => p
      case Some(w) => Sweep(ApplyWrite(p.store, w), p.writes + [w])
  }

  /** syncRecordings on a directory listing, a calls table and a clock reading. */
  function SyncSpec(entries: seq<FileEntry>, calls: seq<Call>, now: int): Sweep {
    var files := WavFiles(entries);
    if files == [] then Sweep(calls, []) else SweepFiles(calls, Candidates(calls, now), files)
  }

  /** syncRecordings. */
  method SyncRecordings(entries: seq<FileEntry>, calls: seq<Call>, now: int) returns (store: seq<Call>, matched: nat)
    ensures store == SyncSpec(entries, calls, now).store
    ensures matched == |SyncSpec(entries, calls, now).writes|
  {
    var files := WavFiles(entries);
    store := calls;
    matched := 0;
    if |files| == 0 {
      return;
    }
    var initiatedCalls := Candidates(calls, now);
    for i := 0 to |files|
      invariant store == SweepFiles(calls, initiatedCalls, files[..i]).store
      invariant matched == |SweepFiles(calls, initiatedCalls, files[..i]).writes|
    {
      var file := files[i];
      assert files[..i + 1][..i] == files[..i];
      assert files[..i + 1][i] == file;
      var recordingUrl := "/recordings/" + file.name;
      if Linked(store, recordingUrl) {
        continue;
      }
      var call := FirstInWindow(initiatedCalls, file.mtime);
      if call.Some? {
        var duration := (file.size + 5000) / 10000;
        store := UpdateCalls(store, ById(call.value.id),
                             Completion(recordingUrl, file.mtime, if duration > 1 then duration else 1));
        matched := matched + 1;
      }
    }
    assert files[..|files|] == files;
  }

  // ---------------------------------------------------------------- properties

  /** Without a `.wav` file the table is left as it is. */
  lemma NoWavNoChange(entries: seq<FileEntry>, calls: seq<Call>, now: int)
    requires forall k :: 0 <= k < |entries| ==> !EndsWith(entries[k].name, WavSuffix)
    ensures SyncSpec(entries, calls, now) == Sweep(calls, [])
  {
    NoWavFiles(entries);
  }

  lemma {:induction false} NoWavFiles(entries: seq<FileEntry>)
    requires forall k :: 0 <= k < |entries| ==> !EndsWith(entries[k].name, WavSuffix)
    ensures WavFiles(entries) == []
    decreases |entries|
  {
    if entries != [] {
      NoWavFiles(entries[1..]);
    }
  }

  /** Writes applied in order. */
  function ApplyWrites(calls: seq<Call>, ws: seq<Write>): seq<Call>
    decreases |ws|
  {
    if ws == [] then calls else ApplyWrite(ApplyWrites(calls, ws[..|ws| - 1]), ws[|ws| - 1])
  }

  /** The table a sweep leaves is the old table with its writes applied, one per match. */
  lemma {:induction false} SweepIsWrites(calls: seq<Call>, cands: seq<Call>, files: seq<FileEntry>)
    ensures var p := SweepFiles(calls, cands, files);
            p.store == ApplyWrites(calls, p.writes) && |p.writes| <= |files|
    decreases |files|
  {
    if files != [] {
      var p := SweepFiles(calls, cands, files[..|files| - 1]);
      SweepIsWrites(calls, cands, files[..|files| - 1]);
      match StepWrite(p.store, cands, files[|files| - 1])
      case None =>
        assert SweepFiles(calls, cands, files) == p;
      case Some(w) =>
        var ws := p.writes + [w];
        assert SweepFiles(calls, cands, files) == Sweep(ApplyWrite(p.store, w), ws);
        assert ws[..|ws| - 1] == p.writes;
        assert ws[|ws| - 1] == w;
    }
  }

  /** Each write links a file of the run to a snapshot call in that file's window. */
  predicate Justified(ws: seq<Write>, cands: seq<Call>, files: seq<FileEntry>) {
    forall k :: 0 <= k < |ws| ==> ws[k].file in files && ws[k].call in cands && InWindow(ws[k].call, ws[k].file.mtime)
  }

  lemma {:induction false} WritesJustified(calls: seq<Call>, cands: seq<Call>, files: seq<FileEntry>)
    ensures Justified(SweepFiles(calls, cands, files).writes, cands, files)
    decreases |files|
  {
    if files != [] {
      var init := files[..|files| - 1];
      var last := files[|files| - 1];
      var p := SweepFiles(calls, cands, init);
      WritesJustified(calls, cands, init);
      forall k | 0 <= k < |p.writes| ensures p.writes[k].file in files {
        var f := p.writes[k].file;
        var j :| 0 <= j < |init| && init[j] == f;
        assert files[j] == f;
      }
      match StepWrite(p.store, cands, last)
      case None =>
        assert SweepFiles(calls, cands, files) == p;
      case Some(w) =>
        var ws := p.writes + [w];
        assert SweepFiles(calls, cands, files) == Sweep(ApplyWrite(p.store, w), ws);
        assert w.call == FirstInWindow(cands, last.mtime).value && w.file == last;
        assert forall k :: 0 <= k < |p.writes| ==> ws[k] == p.writes[k];
    }
  }

  /** One write touches exactly the rows with that id (with distinct ids, one row) and finalises them; ids stay as they were. */
  lemma ApplyWriteEffect(store: seq<Call>, w: Write)
    ensures var r := ApplyWrite(store, w);
            |r| == |store|
            && forall i :: 0 <= i < |store| ==>
                 r[i] == if store[i].id == w.call.id then Complete(store[i], WriteData(w.file)) else store[i]
    ensures var r := ApplyWrite(store, w);
            forall i :: 0 <= i < |store| ==> r[i].id == store[i].id
  {
  }

  /** After a write its locator is linked, so a later pass skips that file. */
  lemma WriteLinks(store: seq<Call>, w: Write)
    requires exists i :: 0 <= i < |store| && store[i].id == w.call.id
    ensures Linked(ApplyWrite(store, w), UrlOf(w.file))
  {
    var i :| 0 <= i < |store| && store[i].id == w.call.id;
    assert ApplyWrite(store, w)[i].recordingUrl == Some(UrlOf(w.file));
  }

  /**
   * The snapshot is not refreshed inside the loop: two new files whose times
   * both fall within the window of the same `initiated` call are both matched
   * to it, and the second write overwrites the first recording.
   */
  lemma StaleSnapshotMatchesTwice(c: Call, f1: FileEntry, f2: FileEntry)
    requires c.status == Initiated && c.recordingUrl.None?
    requires InWindow(c, f1.mtime) && InWindow(c, f2.mtime)
    requires f1.name != f2.name
    ensures var p := SweepFiles([c], [c], [f1, f2]);
            p.writes == [Write(c, f1), Write(c, f2)]
            && |p.store| == 1 && p.store[0].recordingUrl == Some(UrlOf(f2))
  {
    var s0 := Sweep([c], []);
    assert SweepFiles([c], [c], []) == s0;
    assert FirstInWindow([c], f1.mtime) == Some(c);
    assert FirstInWindow([c], f2.mtime) == Some(c);
    assert !Linked([c], UrlOf(f1));
    assert StepWrite([c], [c], f1) == Some(Write(c, f1));
    assert [f1][..0] == [];
    var s1 := Sweep(ApplyWrite([c], Write(c, f1)), [Write(c, f1)]);
    assert SweepFiles([c], [c], [f1]) == s1;
    assert s1.store[0].recordingUrl == Some(UrlOf(f1));
    assert UrlOf(f1) != UrlOf(f2) by {
      assert UrlOf(f1)[12..] == f1.name;
      assert UrlOf(f2)[12..] == f2.name;
    }
    assert !Linked(s1.store, UrlOf(f2));
    assert StepWrite(s1.store, [c], f2) == Some(Write(c, f2));
    assert [f1, f2][..1] == [f1];
  }
}

=== FILE: records.dfy ===
/**
 * The two tables the core reads and writes (users and calls), held as sequences
 * of rows in table order, and the ORM's `updateMany` as filter-then-map.
 */
module Records {
  import opened Wrappers

  /** A user account: presence is the `status` column ("online", "offline", ...). */
  datatype User = User(id: nat, extension: string, status: string)

  /** A call record. `status` is free text: "initiated" on creation, "completed" once finalised. */
  datatype Call = Call(
    id: nat,
    callerId: nat,
    calleeId: nat,
    sipCallId: Option<string>,
    status: string,
    startTime: int,
    endTime: Option<int>,
    duration: Option<int>,
    recordingUrl: Option<string>)

  const Online := "online"
  const Offline := "offline"
  const Initiated := "initiated"
  const Completed := "completed"

  /** The `where` part of a user `updateMany`. */
  datatype UserFilter = ExtensionIs(ext: string) | ExtensionIn(exts: set<string>) | ExtensionNotIn(exts: set<string>)

  predicate UserMatches(f: UserFilter, u: User) {
    match f
    case ExtensionIs(e) => u.extension == e
    case ExtensionIn(es) => u.extension in es
    case ExtensionNotIn(es) => u.extension !in es
  }

  /** `user.updateMany({ where, data: { status } })`. */
  datatype UserUpdate = UserUpdate(where: UserFilter, status: string)

  function UpdateUsers(users: seq<User>, w: UserUpdate): seq<User> {
    seq(|users|, i requires 0 <= i < |users| =>
      if UserMatches(w.where, users[i]) then users[i].(status := w.status) else users[i])
  }

  /** Several user writes, applied in order. */
  function ApplyUserUpdates(users: seq<User>, ws: seq<UserUpdate>): seq<User>
    decreases |ws|
  {
    if ws == [] then users else ApplyUserUpdates(UpdateUsers(users, ws[0]), ws[1..])
  }

  /** `user.findMany({ where: { extension } })[0]`: the first account in table order with that extension. */
  function FirstWithExtension(users: seq<User>, ext: string): (r: Option<User>)
    ensures r.Some? ==> r.value in users && r.value.extension == ext
    ensures r.None? ==> forall u :: u in users ==> u.extension != ext
  {
    if users == [] then None
    else if users[0].extension == ext then Some(users[0])
    else FirstWithExtension(users[1..], ext)
  }

  /** The data every finalising write sets on a call. */
  datatype Completion = Completion(recordingUrl: string, endTime: int, duration: int)

  function Complete(c: Call, w: Completion): Call {
    c.(recordingUrl := Some(w.recordingUrl), status := Completed, endTime := Some(w.endTime), duration := Some(w.duration))
  }

  /** The `where` part of a call `updateMany` or `update`. */
  datatype CallFilter =
    | BySipCallId(sipCallId: string)
    | ByParties(callerId: nat, calleeId: nat, since: int, status: string)
    | ById(id: nat)

  predicate CallMatches(f: CallFilter, c: Call) {
    match f
    case BySipCallId(s) => c.sipCallId == Some(s)
    case ByParties(caller, callee, since, st) =>
      c.callerId == caller && c.calleeId == callee && c.startTime >= since && c.status == st
    case ById(id) => c.id == id
  }

  /** `call.updateMany({ where, data })` on the rows; the count it reports is CountMatching. */
  function UpdateCalls(calls: seq<Call>, f: CallFilter, w: Completion): seq<Call> {
    seq(|calls|, i requires 0 <= i < |calls| =>
      if CallMatches(f, calls[i]) then Complete(calls[i], w) else calls[i])
  }

  function CountMatching(calls: seq<Call>, f: CallFilter): nat {
    if calls == [] then 0
    else CountMatching(calls[..|calls| - 1], f) + (if CallMatches(f, calls[|calls| - 1]) then 1 else 0)
  }

  lemma {:induction false} CountMatchingZero(calls: seq<Call>, f: CallFilter)
    ensures CountMatching(calls, f) == 0 <==> forall i :: 0 <= i < |calls| ==> !CallMatches(f, calls[i])
  {
    if calls != [] {
      var init := calls[..|calls| - 1];
      CountMatchingZero(init, f);
      assert forall i :: 0 <= i < |init| ==> init[i] == calls[i];
    }
  }

  /** Some row already carries this recording locator (`call.findFirst({ where: { recordingUrl } })`). */
  predicate Linked(calls: seq<Call>, url: string) {
    exists i :: 0 <= i < |calls| && calls[i].recordingUrl == Some(url)
  }
}

=== FILE: text.dfy ===
/**
 * The handful of JavaScript string operations the core relies on
 * (`indexOf`, `lastIndexOf`, `includes`, `startsWith`, `endsWith`, `trim`,
 * `split('\n')` and `parseInt(_, 10)`), written out with the same edge cases.
 */
module Text {
  import opened Wrappers

  /** `pat` occurs in `s` starting at index `i`. */
  predicate IsAt(s: string, pat: string, i: int) {
    0 <= i && i + |pat| <= |s| && s[i..i + |pat|] == pat
  }

  /** `pat` occurs somewhere in `s`. */
  ghost predicate Occurs(s: string, pat: string) {
    exists i :: IsAt(s, pat, i)
  }

  /** The first occurrence of `pat` at or after `from`, or -1 (String.prototype.indexOf). */
  function IndexOfFrom(s: string, pat: string, from: nat): (r: int)
    ensures r == -1 || (from <= r && IsAt(s, pat, r))
    ensures forall j :: from <= j && (r == -1 || j < r) ==> !IsAt(s, pat, j)
    decreases |s| - from
  {
    if from + |pat| > |s| then -1
    else if s[from..from + |pat|] == pat then from
    else IndexOfFrom(s, pat, from + 1)
  }

  /** The first occurrence of `pat` in `s`, or -1. */
  function IndexOf(s: string, pat: string): (r: int)
    ensures r == -1 || IsAt(s, pat, r)
    ensures forall j :: 0 <= j && (r == -1 || j < r) ==> !IsAt(s, pat, j)
  {
    IndexOfFrom(s, pat, 0)
  }

  /** String.prototype.includes. */
  predicate Contains(s: string, pat: string)
    ensures Contains(s, pat) <==> Occurs(s, pat)
  {
    IndexOf(s, pat) >= 0
  }

  /** An occurrence of `pat` in `t` is still one after a prefix is put in front. */
  lemma OccursAfterPrefix(p: string, t: string, pat: string)
    requires Occurs(t, pat)
    ensures Occurs(p + t, pat)
  {
    var i :| IsAt(t, pat, i);
    assert (p + t)[|p| + i..|p| + i + |pat|] == t[i..i + |pat|];
    assert IsAt(p + t, pat, |p| + i);
  }

  /** The last occurrence of `pat` starting before `k`, or -1. */
  function LastIndexBefore(s: string, pat: string, k: nat): (r: int)
    ensures r == -1 || (r < k && IsAt(s, pat, r))
    ensures forall j :: r < j < k ==> !IsAt(s, pat, j)
    decreases k
  {
    if k == 0 then -1
    else if IsAt(s, pat, k - 1) then k - 1
    else LastIndexBefore(s, pat, k - 1)
  }

  /** The last occurrence of `pat` in `s`, or -1 (String.prototype.lastIndexOf). */
  function LastIndexOf(s: string, pat: string): (r: int)
    ensures r == -1 || IsAt(s, pat, r)
    ensures forall j :: r < j ==> !IsAt(s, pat, j)
  {
    LastIndexBefore(s, pat, |s| + 1)
  }

  predicate StartsWith(s: string, prefix: string) {
    |prefix| <= |s| && s[..|prefix|] == prefix
  }

  predicate EndsWith(s: string, suffix: string) {
    |suffix| <= |s| && s[|s| - |suffix|..] == suffix
  }

  /** The characters that String.prototype.trim and parseInt skip: WhiteSpace and LineTerminator. */
  predicate IsSpace(c: char) {
    c == '\t' || c == '\n' || c == '\U{000B}' || c == '\U{000C}' || c == '\r' || c == ' '
    || c == '\U{00A0}' || c == '\U{1680}' || ('\U{2000}' <= c <= '\U{200A}')
    || c == '\U{2028}' || c == '\U{2029}' || c == '\U{202F}' || c == '\U{205F}'
    || c == '\U{3000}' || c == '\U{FEFF}'
  }

  /** `s` without its leading white space. */
  function TrimStart(s: string): (r: string)
    ensures |r| <= |s| && r == s[|s| - |r|..]
    ensures r == [] || !IsSpace(r[0])
    ensures forall i :: 0 <= i < |s| - |r| ==> IsSpace(s[i])
  {
    if |s| > 0 && IsSpace(s[0]) then TrimStart(s[1..]) else s
  }

  /** `s` without its trailing white space. */
  function TrimEnd(s: string): (r: string)
    ensures |r| <= |s| && r == s[..|r|]
    ensures r == [] || !IsSpace(r[|r| - 1])
    ensures forall i :: |r| <= i < |s| ==> IsSpace(s[i])
  {
    if |s| > 0 && IsSpace(s[|s| - 1]) then TrimEnd(s[..|s| - 1]) else s
  }

  /** String.prototype.trim. */
  function Trim(s: string): string {
    TrimEnd(TrimStart(s))
  }

  /** Neither end of `s` is white space: `s` is its own trim. */
  predicate Trimmed(s: string) {
    s == [] || (!IsSpace(s[0]) && !IsSpace(s[|s| - 1]))
  }

  lemma TrimOfTrimmed(s: string)
    requires Trimmed(s)
    ensures Trim(s) == s
  {
  }

  /** One space before a trimmed string is trimmed away. */
  lemma TrimLeadingSpace(s: string)
    requires Trimmed(s)
    ensures Trim(" " + s) == s
  {
    assert (" " + s)[1..] == s;
    assert TrimStart(" " + s) == TrimStart(s);
  }

  /** The result of `trim` is empty exactly when the string is all white space. */
  lemma TrimEmptyIffBlank(s: string)
    ensures Trim(s) == [] <==> forall i :: 0 <= i < |s| ==> IsSpace(s[i])
  {
    var t := TrimStart(s);
    if t != [] {
      assert !IsSpace(s[|s| - |t|]);
    }
  }

  /** Joins lines with '\n' between them (Array.prototype.join). */
  function JoinLines(lines: seq<string>): string
    requires |lines| >= 1
  {
    if |lines| == 1 then lines[0] else lines[0] + "\n" + JoinLines(lines[1..])
  }

  /** No '\n' sits before index `k` in `s` when the first "\n" is not before `k`. */
  lemma NoNewlineBefore(s: string, k: int)
    requires 0 <= k <= |s|
    requires forall j :: 0 <= j < k ==> !IsAt(s, "\n", j)
    ensures '\n' !in s[..k]
  {
    forall j | 0 <= j < k ensures s[j] != '\n' {
      assert !IsAt(s, "\n", j);
      assert s[j..j + 1] == [s[j]];
    }
  }

  /** The first '\n' of `s` cuts it into a break-free line, the '\n' and the rest. */
  lemma CutAtNewline(s: string, i: int)
    requires i == IndexOf(s, "\n") && i >= 0
    ensures '\n' !in s[..i]
    ensures s == s[..i] + "\n" + s[i + 1..]
  {
    NoNewlineBefore(s, i);
    assert s[i..i + 1] == "\n";
  }

  lemma JoinLinesCons(line: string, rest: seq<string>)
    requires |rest| >= 1
    ensures JoinLines([line] + rest) == line + "\n" + JoinLines(rest)
  {
    assert ([line] + rest)[1..] == rest;
  }

  /** String.prototype.split('\n'): the pieces between line breaks, in order. */
  function SplitLines(s: string): seq<string>
    decreases |s|
  {
    var i := IndexOf(s, "\n");
    if i < 0 then [s] else [s[..i]] + SplitLines(s[i + 1..])
  }

  /** Splitting yields at least one piece, no piece holds a '\n', and joining the pieces gives `s` back. */
  lemma {:induction false} SplitLinesSound(s: string)
    ensures |SplitLines(s)| >= 1
    ensures forall k :: 0 <= k < |SplitLines(s)| ==> '\n' !in SplitLines(s)[k]
    ensures JoinLines(SplitLines(s)) == s
    decreases |s|
  {
    var i := IndexOf(s, "\n");
    if i < 0 {
      NoNewlineBefore(s, |s|);
      assert s[..|s|] == s;
    } else {
      CutAtNewline(s, i);
      var rest := SplitLines(s[i + 1..]);
      SplitLinesSound(s[i + 1..]);
      JoinLinesCons(s[..i], rest);
      assert forall k :: 1 <= k < |rest| + 1 ==> ([s[..i]] + rest)[k] == rest[k - 1];
    }
  }

  /** Splitting is the inverse of joining lines that hold no '\n'. */
  lemma {:induction false} SplitJoinLines(lines: seq<string>)
    requires |lines| >= 1
    requires forall k :: 0 <= k < |lines| ==> '\n' !in lines[k]
    ensures SplitLines(JoinLines(lines)) == lines
    decreases |lines|
  {
    var l0 := lines[0];
    if |lines| == 1 {
      FirstNewline(l0, "");
    } else {
      var tail := JoinLines(lines[1..]);
      var s := l0 + ("\n" + tail);
      assert JoinLines(lines) == s;
      FirstNewline(l0, "\n" + tail);
      assert s[..|l0|] == l0;
      assert s[|l0| + 1..] == tail;
      SplitJoinLines(lines[1..]);
      assert SplitLines(s) == [l0] + lines[1..];
      assert [l0] + lines[1..] == lines;
    }
  }

  /** In `l + rest` with no '\n' in `l`, the first '\n' is the first one of `rest`. */
  lemma FirstNewline(l: string, rest: string)
    requires '\n' !in l
    ensures rest == [] ==> IndexOf(l + rest, "\n") == -1
    ensures rest != [] && rest[0] == '\n' ==> IndexOf(l + rest, "\n") == |l|
  {
    var s := l + rest;
    forall j | 0 <= j < |l| ensures !IsAt(s, "\n", j) {
      assert s[j..j + 1] == [l[j]];
    }
    var r := IndexOf(s, "\n");
    if rest == [] {
      assert r != -1 ==> IsAt(s, "\n", r) && r < |l|;
    } else if rest[0] == '\n' {
      assert s[|l|..|l| + 1] == "\n";
      assert IsAt(s, "\n", |l|);
    }
  }

  predicate IsDigit(c: char) {
    '0' as int <= c as int <= '9' as int
  }

  /** The longest prefix of `s` made of decimal digits. */
  function DigitPrefix(s: string): (r: string)
    ensures |r| <= |s| && r == s[..|r|]
    ensures forall i :: 0 <= i < |r| ==> IsDigit(r[i])
    ensures |r| < |s| ==> !IsDigit(s[|r|])
  {
    if |s| > 0 && IsDigit(s[0]) then [s[0]] + DigitPrefix(s[1..]) else []
  }

  /** The value of a string of decimal digits, most significant first. */
  function DigitsValue(ds: string): nat
    requires forall i :: 0 <= i < |ds| ==> IsDigit(ds[i])
  {
    if ds == [] then 0
    else
      assert IsDigit(ds[|ds| - 1]);
      DigitsValue(ds[..|ds| - 1]) * 10 + (ds[|ds| - 1] as int - '0' as int)
  }

  /** The value of the digits at the start of `t`, if there are any. */
  function ParseDigits(t: string): Option<int> {
    var ds := DigitPrefix(t);
    if ds == [] then None else Some(DigitsValue(ds))
  }

  /**
   * parseInt(s, 10): skip leading white space, take an optional sign and the
   * longest run of decimal digits after it; no digit at all gives NaN (None).
   */
  function ParseInt(s: string): Option<int> {
    var t := TrimStart(s);
    if |t| > 0 && t[0] == '-' then
      match ParseDigits(t[1..])
      case None => None
      case Some(v) => Some(-v)
    else if |t| > 0 && t[0] == '+' then ParseDigits(t[1..])
    else ParseDigits(t)
  }

  /** The decimal rendering of a natural number, as Number.prototype.toString gives it. */
  function DecimalString(n: nat): (r: string)
    ensures |r| >= 1
    ensures forall i :: 0 <= i < |r| ==> IsDigit(r[i])
  {
    if n < 10 then [('0' as int + n) as char]
    else DecimalString(n / 10) + [('0' as int + n % 10) as char]
  }

  lemma {:induction false} DigitsValueOfDecimal(n: nat)
    ensures DigitsValue(DecimalString(n)) == n
  {
    var r := DecimalString(n);
    if n >= 10 {
      assert r[..|r| - 1] == DecimalString(n / 10);
      DigitsValueOfDecimal(n / 10);
    }
  }

  /** parseInt reads back every decimal rendering, whatever non-digit text follows it. */
  lemma ParseIntOfDecimal(n: nat, tail: string)
    requires tail == [] || !IsDigit(tail[0])
    ensures ParseInt(DecimalString(n) + tail) == Some(n)
  {
    ParseIntOfDigits(DecimalString(n), tail);
    DigitsValueOfDecimal(n);
  }

  /** A run of digits at the very start is read as is. */
  lemma ParseIntOfDigits(d: string, tail: string)
    requires d != [] && forall i :: 0 <= i < |d| ==> IsDigit(d[i])
    requires tail == [] || !IsDigit(tail[0])
    ensures ParseInt(d + tail) == Some(DigitsValue(d))
  {
    var s := d + tail;
    assert s[0] == d[0] && IsDigit(s[0]);
    NonSpaceStart(s);
    DigitPrefixOfDigits(d, tail);
    assert ParseDigits(s) == Some(DigitsValue(d));
  }

  lemma NonSpaceStart(s: string)
    requires s != [] && IsDigit(s[0])
    ensures TrimStart(s) == s
  {
    assert !IsSpace(s[0]);
  }

  lemma {:induction false} DigitPrefixOfDigits(d: string, tail: string)
    requires forall i :: 0 <= i < |d| ==> IsDigit(d[i])
    requires tail == [] || !IsDigit(tail[0])
    ensures DigitPrefix(d + tail) == d
    decreases |d|
  {
    if d != [] {
      assert (d + tail)[1..] == d[1..] + tail;
      DigitPrefixOfDigits(d[1..], tail);
    }
  }
}

=== FILE: wrappers.dfy ===
/** An optional value: the model's stand-in for JavaScript's `undefined` and `null`. */
module Wrappers {

  datatype Option<+T> = None | Some(value: T) {

    /** The value, or `default` when there is none. */
    function GetOr(default: T): T {
      match this
      case Some(v) => v
      case None => default
    }
  }
}
